=== FILE: README.md ===
# Solarium collection manager, modelled in Dafny

`CollectionManager` is a thin PHP layer over a Solr cluster's Collections API.
This project models the parts of it that hold logic:

- **Options for `create`.** Unknown keys are rejected (array_diff_key against the five defaults). The caller's options are merged over the defaults (array_merge). The nrt_replicas setting is read with its `?? replication_factor` fallback. The result is the CREATE action.
- **The alias queries.** `getAliasMappings` returns the `aliases` entry of a LISTALIASES reply. `getAliases` returns its keys in order. `hasAlias` is an `in_array` over those keys. `getAliasedCollection` is a lookup-or-null.
- **The admin request strings.** These are the CREATEALIAS, DELETEALIAS and LISTALIASES paths and the URL `{scheme}://{host}:{port}/solr/{path}`. All are built by plain concatenation, with nothing escaped.
- **The manager's commands against a stand-in cluster.** The commands are create, ensureCollection, delete, alias and deleteAlias, plus the `getCollections` fallback to an empty list when the client library raises a TypeError.

The stand-in is a sequential record of:

- the cluster's collections;
- its alias table, as an ordered alias => collection array;
- every request it has received.

The stand-in reads the raw URLs the manager sends: it splits them into scheme, host, port and path (a host that starts with `[` runs to its `]`, as an IPv6 literal does), then reads the query parameters, taking the first value of each. Like PHP's URL layer, it refuses a scheme other than http or https, an empty host, a host holding `/`, `?` or `#`, and a port outside 1..65535. It also fixes the server's side of each call, as an assumption about the server rather than behaviour of the manager:

- CREATE of an existing name fails;
- DELETE of a missing collection fails;
- DELETE of a collection that an alias lists among its targets fails, as Solr refuses it;
- the cluster status lists collections in creation order;
- CREATEALIAS repoints an existing alias in place or appends a new one;
- DELETEALIAS of a missing alias succeeds;
- the status of a cluster with no collections cannot be decoded into a collection list;
- names and settings are not checked: any collection or alias name is accepted, although Solr refuses names outside letters, digits, `.`, `_` and `-`, and refuses settings it cannot use;
- CREATEALIAS does not check that its target collections exist, although Solr does.

Modules, one file each:

| file | module | content |
|---|---|---|
| wrappers.dfy | Wrappers | `Option`, `Result` |
| decimal.dfy | Decimal | PHP integer-to-string interpolation and its parser; PHP 8 numeric strings and loose `==` |
| php_array.dfy | PhpArray | string-keyed ordered arrays: array_keys, element read, array_diff_key, array_merge, element assignment and unset |
| create_options.dfy | CreateOptions | the option validation and defaulting of `create` |
| admin_paths.dfy | AdminPaths | request paths and base URL, and the parsers that read them back |
| alias_table.dfy | AliasTable | getAliases, hasAlias (as written and strict) and getAliasedCollection |
| manager.dfy | Manager | the stand-in cluster and the manager's commands and queries against it |

### `replication_factor`

A comment in `create` calls `replication_factor` an alias of `nrt_replicas`. The code does not behave that way:

- `replication_factor` is not a key of `$defaults`, so array_diff_key lists it and `create` throws.
- The `?? $options['replication_factor']` fallback therefore always reads a missing key, which is null.
- The fallback is reached only when `nrt_replicas` was passed as an explicit null, and then it yields null.

The model follows the code. `CreateOptions.ReplicationFactorRejected` and `CreateOptions.NrtFallbackInert` state this. It is not listed under Findings: whether the alias was meant to be accepted is not clear from the source. Solr's own Collections API accepts `replicationFactor` as another name for `nrtReplicas`, and the comment may record only that.

## Model

| member | source | states |
|---|---|---|
| CreateOptions.BuildCreate | src/CollectionManager.php:87-119 | create fails exactly when some option key is outside the five recognised keys. The failure lists exactly the unrecognised keys, as array_diff_key lists them in input order. Otherwise the action carries the name unchanged and, for each of the five settings, the caller's value if supplied and the default if not. |
| CreateOptions.UnknownKeysExact | src/CollectionManager.php:101-105 | array_diff_key against the defaults is non-empty exactly when some key is unrecognised, and it holds exactly the unrecognised keys |
| CreateOptions.UnknownKeysInInputOrder | src/CollectionManager.php:101-104 | the unknown keys are listed in input order: the listing of a concatenation is the concatenation of the listings |
| CreateOptions.UnknownKeysSingle | src/CollectionManager.php:101-103 | a single option is rejected exactly when its key is not one of the five recognised keys |
| CreateOptions.DefaultKeys | src/CollectionManager.php:89-99 | the defaults hold exactly num_shards, router_name, nrt_replicas, tlog_replicas and pull_replicas, in that order |
| CreateOptions.DefaultValues | src/CollectionManager.php:89-99 | the default values are 1, "compositeId", 1, 0 and 0, and there is no replication_factor entry |
| CreateOptions.MergedReadsResolve | src/CollectionManager.php:107-117 | a key read from the merged array gives the caller's value when supplied and the default otherwise |
| CreateOptions.NrtFallbackInert | src/CollectionManager.php:107-115 | for accepted options, the merged array has no replication_factor, so the fallback reads null. It is reached only for an explicit null nrt_replicas, and nrt_replicas resolves to the caller's value or the default. |
| CreateOptions.DefaultCreate | src/CollectionManager.php:89-119 | create(name) with no options gives num_shards 1, router_name "compositeId", nrt_replicas 1, pull_replicas 0 and tlog_replicas 0 |
| CreateOptions.ReplicationFactorRejected | src/CollectionManager.php:89-105 | options containing replication_factor, although the comment calls it an alias, are rejected, and replication_factor is among the reported keys |
| CreateOptions.SuppliedOverridesDefault | src/CollectionManager.php:107-119 | with only recognised keys supplied, create succeeds and each supplied value is the one the action carries for its setting, whatever the default |
| PhpArray.Merge | src/CollectionManager.php:107 | array_merge keeps the defaults' key order, appends new keys, and every key reads the second array's value if present, else the first's |
| PhpArray.Without | src/CollectionManager.php:101 | array_diff_key keeps every entry whose key is not excluded, and nothing else |
| PhpArray.WithoutConcat | src/CollectionManager.php:101 | array_diff_key keeps the input order: filtering a concatenation is the concatenation of the filtered parts |
| PhpArray.WithoutSingle | src/CollectionManager.php:101 | a single entry is kept exactly when its key is not excluded; with WithoutConcat this fixes the result entry by entry |
| PhpArray.Keys | src/CollectionManager.php:162 | array_keys lists every key in the array's order |
| PhpArray.Get | src/CollectionManager.php:183 | reading a key gives the stored value, and none exactly when the key is absent |
| Decimal.IntToStringRoundTrip | src/CollectionManager.php:215 | the decimal text interpolated for the port reads back as the same integer and consists of an optional minus sign and digits |
| Decimal.LooseEquals | src/CollectionManager.php:152 | PHP 8 string `==` is reflexive, is plain string equality when the needle is not an integer numeric string, and compares two integer numeric strings within 64 bits by value |
| Decimal.IntegerNumericIsNumeric | src/CollectionManager.php:152 | every integer numeric string is a PHP 8 numeric string |
| Decimal.FloatFormsNumeric | src/CollectionManager.php:152 | "1e1" and "10.0" are PHP 8 numeric strings, though not integer numeric strings, so PHP compares them with other numbers by value |
| AdminPaths.AdminUrlRoundTrip | src/CollectionManager.php:215-217 | for an http or https scheme, a non-empty host without `/`, `?` or `#` that is `:`-free or a bracketed IPv6 literal, and a port in 1..65535, the URL reads back as the same endpoint and path |
| AdminPaths.PortOutOfRangeRejected | src/CollectionManager.php:215-217 | a port outside 1..65535 makes the URL unreadable, as PHP's URL parser refuses it |
| AdminPaths.OtherSchemeRejected | src/CollectionManager.php:215-217 | a scheme other than http or https does not give an admin request |
| AdminPaths.BadHostRejected | src/CollectionManager.php:215-217 | an empty host, or one holding `/`, `?` or `#`, makes the URL unreadable |
| AdminPaths.BracketedIpv6HostReadable | src/CollectionManager.php:215-217 | an endpoint with the bracketed IPv6 host `[::1]` gives a URL that reads back as that endpoint and path |
| AdminPaths.Ipv6HostBreaksUrl | src/CollectionManager.php:215 | a bare IPv6 host such as `::1`, without brackets, is spliced in as it is, so the URL no longer reads back |
| AdminPaths.CreateAliasPathShape | src/CollectionManager.php:136 | the CREATEALIAS path is the query action=CREATEALIAS, name, collections, with both names verbatim |
| AdminPaths.CreateAliasPathRoundTrip | src/CollectionManager.php:136 | for `&`-free names the CREATEALIAS path reads back, in the stand-in's reading, as exactly those three parameters |
| AdminPaths.AliasNameInjection | src/CollectionManager.php:136 | an alias name containing `&collections=` adds a parameter of its own: the request reads back with a shorter alias name and an extra collection |
| AdminPaths.DeleteAliasPathRoundTrip | src/CollectionManager.php:147 | for an `&`-free name the DELETEALIAS path reads back, in the stand-in's reading, as action=DELETEALIAS and that name |
| AdminPaths.ListAliasesPathRoundTrip | src/CollectionManager.php:172 | the LISTALIASES path reads back as the single action parameter |
| AliasTable.AliasNames | src/CollectionManager.php:160-163 | getAliases lists the alias names in reported order, each once |
| AliasTable.AliasedCollection | src/CollectionManager.php:181-184 | getAliasedCollection finds a collection exactly for a listed alias, and it finds the collection the alias maps to |
| AliasTable.HasAliasStrict | src/CollectionManager.php:150-153 | hasAlias with a strict comparison holds exactly when getAliasedCollection finds a collection, i.e. when the alias is listed |
| AliasTable.ListedAliasPasses | src/CollectionManager.php:150-153 | every listed alias passes the loose in_array test |
| AliasTable.LooseIsStrictForNonNumeric | src/CollectionManager.php:150-153 | for a name that is not a PHP 8 numeric string of any form (integer, fraction or exponent), the loose test agrees with strict membership in both directions |
| AliasTable.NumericTwinPasses | src/CollectionManager.php:150-153 | the loose test accepts an unlisted integer numeric name whenever a listed name has the same numeric value within 64 bits |
| AliasTable.NumericAliasMismatch | src/CollectionManager.php:150-153 | with only "10" listed, the loose hasAlias("010") holds while getAliasedCollection("010") is null |
| Manager.GetCollectionsReportsCluster | src/CollectionManager.php:53-62 | getCollections yields the cluster's collections, and yields the empty list when the status of an empty cluster raises the TypeError |
| Manager.Create | src/CollectionManager.php:87-124 | unknown options throw before anything is sent, leaving the cluster unchanged. Valid options send exactly one CREATE. The call succeeds exactly when the options are valid and the name is new, and then the collection is appended. A duplicate name fails and changes no collection. |
| Manager.EnsureCollection | src/CollectionManager.php:73-78 | ensureCollection never fails and leaves the name present. For an existing name no CREATE is sent and the cluster is unchanged. Otherwise the collection with default settings is appended. |
| Manager.EnsureCollectionTwice | tests/Integration/CollectionManagerTest.php:30-39 | calling ensureCollection twice never fails, and the second call leaves the cluster exactly as the first left it |
| Manager.CreateThenPresent | tests/Integration/CollectionManagerTest.php:9-16 | create(name) on a cluster without it succeeds, the name is then present, and earlier collections stay |
| Manager.CreateTwiceFails | tests/Integration/CollectionManagerTest.php:19-27 | a second create of the same name fails with "collection exists" and leaves the collections as the first create left them |
| Manager.CreateThenListed | tests/Integration/CollectionManagerTest.php:58-70 | after create(name), getCollections lists the earlier collections followed by the name |
| Manager.Delete | src/CollectionManager.php:192-201 | delete sends one DELETE. It succeeds exactly when the collection exists and no alias targets it; a missing collection and an aliased one fail with their own errors and change no collection. After a success the name is absent, and every other collection's presence and the alias table are unchanged. |
| Manager.DeleteRemovesOnlyName | tests/Integration/CollectionManagerTest.php:42-55 | deleting one of two collections that no alias targets removes it and keeps the other |
| Manager.DeleteAliasedRefused | src/CollectionManager.php:192-201 | delete of a collection that an alias points at is refused and leaves the collections unchanged, which is why aliases must be deleted first |
| Manager.RawApiRequest | src/CollectionManager.php:207-218 | a raw request sends exactly one GET of the admin URL for the path and never changes the collections |
| Manager.GetAliasMappingsReportsTable | src/CollectionManager.php:170-173 | getAliasMappings returns the cluster's alias table unchanged and only records the LISTALIASES request |
| Manager.AliasQueriesReportTable | src/CollectionManager.php:150-184 | getAliases, hasAlias as written (the loose in_array), the strict hasAlias and getAliasedCollection answer from the cluster's alias table |
| Manager.AliasPointsAt | src/CollectionManager.php:134-137 | alias(collection, alias) succeeds and points the alias at the collection, leaving every other alias and all collections alone. A new alias is appended to the listing and an existing one is repointed in place. |
| Manager.AliasRepoints | src/CollectionManager.php:134-137 | re-aliasing a name repoints it without listing it twice |
| Manager.DeleteAliasRemoves | src/CollectionManager.php:145-148 | deleteAlias succeeds, the alias no longer resolves, and other aliases and collections stay. A missing alias leaves the table unchanged. |
| Manager.DeleteAliasTwice | tests/Integration/CollectionManagerTest.php:116-128 | a second deleteAlias of the same name succeeds and changes nothing |
| Manager.DeleteAliasThenAbsent | tests/Integration/CollectionManagerTest.php:116-128 | after deleteAlias(alias) the alias does not resolve and the strict hasAlias(alias) is false. hasAlias as written is false too when the name is not a numeric string of any form. |
| Manager.NoAliasesNoHasAlias | tests/Integration/CollectionManagerTest.php:104-106 | a cluster without aliases answers hasAlias with false, both as written and strict |
| Manager.DeleteAliasLeavesNumericTwin | src/CollectionManager.php:145-153 | with "10" and "010" listed, after deleteAlias("10") hasAlias("10") as written still holds, while "10" no longer resolves and the strict test is false |
| Manager.AliasThenHasAlias | tests/Integration/CollectionManagerTest.php:104-112 | after alias(collection, alias), hasAlias(alias) holds as written and strict, and the alias resolves to the collection |
| Manager.AliasesListedInCreationOrder | tests/Integration/CollectionManagerTest.php:131-141 | two new aliases are appended to the alias table in call order |
| Manager.GetAliasesInCreationOrder | tests/Integration/CollectionManagerTest.php:131-141 | getAliases after aliasing two new names lists the earlier aliases, then the two names in call order |
| Manager.AliasMappingsExample | src/CollectionManager.php:170-173 | after aliasing foo to a1 and a2 and then bar to b1 on a cluster without aliases, getAliasMappings is exactly [a1 => foo, a2 => foo, b1 => bar] |

## Left out

- `status` (src/CollectionManager.php:28-41) only sets an optional collection filter on a client-library query. The stand-in answers status with the collection list, or the TypeError case when there are none. The status requests that getCollections and hasCollection send are not recorded among the stand-in's received requests.
- The client library (`createCollections`, `collections`, `ClusterStatusResult`, `CollectionState`, `HttpException`) is not part of this model. A collection state is the CREATE action that made it, and `hasCollection` is membership of its name. A server error thrown as an exception is a `Failure` value.
- `file_get_contents` and `json_decode` in rawApiRequest are network I/O and JSON decoding. The stand-in returns decoded replies directly. The PHP `assert`s on their failure (lines 220 and 224) may be disabled at run time, so no guarantee is modelled for them.
- The response objects of create and delete are not modelled; both commands return unit.
- The text of the "Unknown options" message, a json_encode of the key list, is not modelled. The model keeps the key list itself.
- The race in ensureCollection between the existence check and the create (line 76) is a concurrency matter. The model is sequential.
- The endpoint port is an integer. A null port, which PHP would interpolate as an empty string, is not modelled.
- Option values are null, integers or strings. Floats, booleans and arrays passed as option values are not modelled, because create only forwards them.
- PHP turns decimal-integer string keys such as "10" into integer keys. The model keeps every key a string. For hasAlias and getAliasedCollection this makes no difference: a read of `$m["10"]` converts the key the same way, and in_array compares a string with such an integer numerically, just as it compares two numeric strings.
- AliasTable.AliasNames: getAliases returns such a name as the integer 10, while the model lists the string "10". The order and the set of names are the same; the PHP type of each element is not modelled.
- The stand-in does no percent-decoding and does not treat `#`, `+`, `?` or spaces specially, so it promises nothing about names that contain them (see Manager.AliasPointsAt below).
- The unit test's expectations for setMaxShardsPerNode, setReplicationFactor and setAutoAddReplicas (tests/Unit/CollectionManagerTest.php:30-32) are stale: the code no longer calls those setters. The integration harness (tests/Integration/TestCase.php) is set-up and clean-up I/O.
- Manager.AliasPointsAt: the alias and collection names must be `QuerySafe`, that is free of `&`, `+`, `%`, `#`, `?`, spaces and control characters, and the endpoint must be readable (`ReadableEndpoint`): an http or https scheme, a non-empty host without `/`, `?` or `#` that is `:`-free or a bracketed IPv6 literal such as `[::1]`, and a port in 1..65535. The manager escapes nothing, so a real server reads other names altered: `&` starts a new parameter (AdminPaths.AliasNameInjection), `+` becomes a space, `%XX` is decoded, a space or `#` cuts the request short, and PHP's URL parser replaces a control character with `_`. A bare IPv6 host such as `::1` makes the URL unreadable, for PHP as for the stand-in (AdminPaths.Ipv6HostBreaksUrl). The stand-in does not decode, so it cannot say what the server makes of such names, and nothing is promised for them.
- Manager.GetAliasMappingsReportsTable: the endpoint must be readable (`ReadableEndpoint`): an http or https scheme, a non-empty host without `/`, `?` or `#` that is `:`-free or a bracketed IPv6 literal, and a port in 1..65535. PHP refuses any other endpoint's URL or reads it as a different request (AdminPaths.Ipv6HostBreaksUrl, AdminPaths.PortOutOfRangeRejected, AdminPaths.OtherSchemeRejected, AdminPaths.BadHostRejected), so nothing is promised for it.
- Manager.AliasQueriesReportTable: the endpoint must be readable (`ReadableEndpoint`): an http or https scheme, a non-empty host without `/`, `?` or `#` that is `:`-free or a bracketed IPv6 literal, and a port in 1..65535. PHP refuses any other endpoint's URL or reads it as a different request (AdminPaths.Ipv6HostBreaksUrl, AdminPaths.PortOutOfRangeRejected, AdminPaths.OtherSchemeRejected, AdminPaths.BadHostRejected), so nothing is promised for it.
- Manager.NoAliasesNoHasAlias: the endpoint must be readable (`ReadableEndpoint`): an http or https scheme, a non-empty host without `/`, `?` or `#` that is `:`-free or a bracketed IPv6 literal, and a port in 1..65535. PHP refuses any other endpoint's URL or reads it as a different request (AdminPaths.Ipv6HostBreaksUrl, AdminPaths.PortOutOfRangeRejected, AdminPaths.OtherSchemeRejected, AdminPaths.BadHostRejected), so nothing is promised for it.
- Manager.AliasRepoints: the same `QuerySafe` names and readable endpoint as Manager.AliasPointsAt.
- Manager.AliasesListedInCreationOrder: the same `QuerySafe` names and readable endpoint as Manager.AliasPointsAt.
- Manager.GetAliasesInCreationOrder: the same `QuerySafe` names and readable endpoint as Manager.AliasPointsAt.
- Manager.AliasMappingsExample: the same `QuerySafe` names and readable endpoint as Manager.AliasPointsAt.
- Manager.AliasThenHasAlias: the same `QuerySafe` names and readable endpoint as Manager.AliasPointsAt.
- Manager.DeleteAliasRemoves: a `QuerySafe` name and a readable endpoint, for the reasons given for Manager.AliasPointsAt.
- Manager.DeleteAliasTwice: a `QuerySafe` name and a readable endpoint, for the reasons given for Manager.AliasPointsAt.
- Manager.DeleteAliasThenAbsent: a `QuerySafe` name and a readable endpoint, as for Manager.AliasPointsAt. hasAlias as written is proved false only for names that are not numeric strings of any form. For numeric names it can stay true: Manager.DeleteAliasLeavesNumericTwin shows this for "10" beside "010", and in PHP a float-form name such as "10.0" or "1e1" also passes against a listed "10".
- Decimal.LooseEquals: only integer-form numeric strings (PHP whitespace, an optional sign, digits) are compared by value, and only within 64 bits. Two integer strings beyond 64 bits are compared as text, as PHP 8 does when both overflow the same way. When only one of the two overflows, PHP compares both as floats and can find them equal, as for "9223372036854775807" and "9223372036854775808"; the model says unequal. Strings with decimal points or exponents, which PHP also compares by value, are compared as text.
- Manager.HasAliasOn: answers with the strict comparison, the corrected definition listed under Findings. Manager.HasAliasLoose is hasAlias as written, over AliasTable.HasAlias.
- AliasTable.LooseIsStrictForNonNumeric: the agreement is stated only for names that are not PHP 8 numeric strings of any form. For a numeric name PHP compares by value, so the loose and strict tests can differ: "010", "10.0" and "1e1" all pass against a listed "10" (AliasTable.NumericTwinPasses, Decimal.FloatFormsNumeric).

## Findings

| source | as written | input that shows it | evidently intended | confidence | as-written member | corrected member |
|---|---|---|---|---|---|---|
| src/CollectionManager.php:152 | `in_array` without the strict flag compares names loosely, so numeric strings compare as numbers | alias "10" listed; hasAlias("010") is true while getAliasedCollection("010") is null. PHP treats "10.0" and "1e1" the same way; the model compares only integer forms by value. With "10" and "010" listed, hasAlias("10") stays true after deleteAlias("10") (Manager.DeleteAliasLeavesNumericTwin) | hasAlias(a) holds exactly when a is a listed alias, in agreement with getAliasedCollection | medium, not executed | AliasTable.NumericAliasMismatch | AliasTable.HasAliasStrict |

=== FILE: admin_paths.dfy ===
/**
 * The admin request strings CollectionManager builds by plain concatenation:
 * the CREATEALIAS, DELETEALIAS and LISTALIASES paths and the base URL with its
 * hard-coded `/solr` segment. Names are spliced in verbatim, with no escaping.
 * The parsers here are the partners that read such strings back.
 */
module AdminPaths {
  import opened Wrappers
  import opened Decimal

  /** What the client's endpoint reports: scheme, host and port. */
  datatype Endpoint = Endpoint(scheme: string, host: string, port: int)

  /** The part every Collections API path starts with. */
  const CollectionsApi: string := "admin/collections?"

  function CreateAliasPath(collection: string, alias: string): string
  {
    CollectionsApi + "action=CREATEALIAS&name=" + alias + "&collections=" + collection
  }

  function DeleteAliasPath(alias: string): string
  {
    CollectionsApi + "action=DELETEALIAS&name=" + alias
  }

  const ListAliasesPath: string := CollectionsApi + "action=LISTALIASES"

  /** `{scheme}://{host}:{port}/solr` */
  function BaseUri(e: Endpoint): string
  {
    e.scheme + "://" + e.host + ":" + IntToString(e.port) + "/solr"
  }

  /** The URL rawApiRequest fetches for a path. */
  function AdminUrl(e: Endpoint, path: string): string
  {
    BaseUri(e) + "/" + path
  }

  /** Position of the first occurrence of `c` in `s`. */
  function IndexOf(s: string, c: char): (i: nat)
    requires c in s
    ensures i < |s| && s[i] == c && c !in s[..i]
  {
    if s[0] == c then 0 else 1 + IndexOf(s[1..], c)
  }

  /** The largest TCP port; PHP's URL parser refuses a larger one, and port 0 cannot be connected to. */
  const MaxPort: int := 65535

  /** The schemes whose stream wrapper speaks HTTP. */
  predicate WebScheme(s: string)
  {
    s == "http" || s == "https"
  }

  /** Host text PHP's URL parser keeps whole: non-empty, and without the characters that end the authority. */
  predicate HostText(h: string)
  {
    |h| > 0 && '/' !in h && '?' !in h && '#' !in h
  }

  /** Reads `port/solr/path`. */
  function ParsePortAndPath(s: string): Option<(int, string)>
  {
    if '/' !in s then None else
    var k := IndexOf(s, '/');
    var tail := s[k..];
    match ParseInt(s[..k])
    case None => None
    case Some(port) =>
      if !(0 < port <= MaxPort) then None
      else if |tail| >= 6 && tail[..6] == "/solr/" then Some((port, tail[6..])) else None
  }

  /**
   * A host the URL reader can delimit: a bracketed IPv6 literal such as
   * `[::1]`, closed by its only `]`, or a name or address without `:`.
   */
  predicate DelimitedHost(h: string)
  {
    HostText(h) &&
    if h[0] == '[' then |h| >= 2 && h[|h| - 1] == ']' && ']' !in h[..|h| - 1]
    else ':' !in h
  }

  /** An endpoint whose URLs PHP fetches as they are written: http or https, a delimited host and a valid port. */
  predicate ReadableEndpoint(e: Endpoint)
  {
    WebScheme(e.scheme) && DelimitedHost(e.host) && 0 < e.port <= MaxPort
  }

  /** Reads `host:port/solr/path`; a host that starts with `[` runs to the first `]`. */
  function ParseHostPortPath(s: string): Option<(string, int, string)>
  {
    if |s| > 0 && s[0] == '[' then
      if ']' !in s then None else
      var j := IndexOf(s, ']');
      var rest := s[j + 1..];
      if |rest| == 0 || rest[0] != ':' then None else
      if !HostText(s[..j + 1]) then None else
      match ParsePortAndPath(rest[1..])
      case None => None
      case Some((port, path)) => Some((s[..j + 1], port, path))
    else if ':' !in s then None else
    var j := IndexOf(s, ':');
    if !HostText(s[..j]) then None else
    match ParsePortAndPath(s[j + 1..])
    case None => None
    case Some((port, path)) => Some((s[..j], port, path))
  }

  /** Splits a URL of the shape AdminUrl produces back into its endpoint and path. */
  function ParseAdminUrl(u: string): Option<(Endpoint, string)>
  {
    if ':' !in u then None else
    var i := IndexOf(u, ':');
    var rest := u[i + 1..];
    if !WebScheme(u[..i]) || |rest| < 2 || rest[..2] != "//" then None else
    match ParseHostPortPath(rest[2..])
    case None => None
    case Some((host, port, path)) => Some((Endpoint(u[..i], host, port), path))
  }

  /** Splits a query string at every `sep`. */
  function SplitOn(s: string, sep: char): (parts: seq<string>)
    ensures |parts| > 0
    decreases |s|
  {
    if sep !in s then [s]
    else
      var i := IndexOf(s, sep);
      [s[..i]] + SplitOn(s[i + 1..], sep)
  }

  /** One `name=value` query parameter, split at its first `=`. */
  function ParsePair(p: string): (string, string)
  {
    if '=' in p then
      var i := IndexOf(p, '=');
      (p[..i], p[i + 1..])
    else (p, "")
  }

  function ParsePairs(parts: seq<string>): (ps: seq<(string, string)>)
    ensures |ps| == |parts|
  {
    if |parts| == 0 then [] else [ParsePair(parts[0])] + ParsePairs(parts[1..])
  }

  /** The parameters of a query string, in order, without any percent-decoding. */
  function ParseQuery(q: string): seq<(string, string)>
  {
    ParsePairs(SplitOn(q, '&'))
  }

  /** The parameters of a Collections API path, or None when the path is not one. */
  function ParseCollectionsRequest(path: string): Option<seq<(string, string)>>
  {
    if |path| >= |CollectionsApi| && path[..|CollectionsApi|] == CollectionsApi
    then Some(ParseQuery(path[|CollectionsApi|..]))
    else None
  }

  lemma {:induction false} IndexOfFirst(x: string, y: string, c: char)
    requires c !in x && |y| > 0 && y[0] == c
    ensures c in x + y && IndexOf(x + y, c) == |x|
    decreases |x|
  {
    assert (x + y)[|x|] == c;
    if |x| > 0 {
      assert (x + y)[1..] == x[1..] + y;
      IndexOfFirst(x[1..], y, c);
    }
  }

  lemma SplitFirst(x: string, y: string, sep: char)
    requires sep !in x
    ensures SplitOn(x + [sep] + y, sep) == [x] + SplitOn(y, sep)
  {
    var s := x + [sep] + y;
    assert s == x + ([sep] + y);
    IndexOfFirst(x, [sep] + y, sep);
    assert s[..|x|] == x;
    assert s[|x| + 1..] == y;
  }

  lemma ParsePairOf(k: string, v: string)
    requires '=' !in k
    ensures ParsePair(k + "=" + v) == (k, v)
  {
    var p := k + "=" + v;
    IndexOfFirst(k, "=" + v, '=');
    assert p == k + ("=" + v);
    assert p[..|k|] == k;
    assert p[|k| + 1..] == v;
  }

  /** A query string assembled from parameters: `k1=v1&k2=v2&...`. */
  function Query(ps: seq<(string, string)>): string
  {
    if |ps| == 0 then ""
    else if |ps| == 1 then ps[0].0 + "=" + ps[0].1
    else ps[0].0 + "=" + ps[0].1 + "&" + Query(ps[1..])
  }

  /**
   * A name that a real server reads back unaltered when it is spliced into a
   * query string unescaped: no `&` (a parameter separator), `+` (read as a
   * space), `%` (an escape), `#` (starts a fragment), `?`, space, or control
   * character (PHP's URL parser replaces those with `_`).
   */
  predicate QuerySafe(s: string)
  {
    && '&' !in s && '+' !in s && '%' !in s && '#' !in s && '?' !in s && ' ' !in s
    && forall i :: 0 <= i < |s| ==> ' ' <= s[i] && s[i] != '\U{7F}'
  }

  /** Keys free of `=` and `&` and values free of `&` survive being written to a query string and read back. */
  predicate Unambiguous(ps: seq<(string, string)>)
  {
    forall i :: 0 <= i < |ps| ==> '=' !in ps[i].0 && '&' !in ps[i].0 && '&' !in ps[i].1
  }

  lemma NoCharInPair(k: string, v: string, c: char)
    requires c !in k && c !in v && c != '='
    ensures c !in k + "=" + v
  {
    var p := k + "=" + v;
    forall i | 0 <= i < |p|
      ensures p[i] != c
    {
      if i < |k| {
        assert p[i] == k[i];
      } else if i > |k| {
        assert p[i] == v[i - |k| - 1];
      }
    }
  }

  lemma {:induction false} QueryRoundTrip(ps: seq<(string, string)>)
    requires |ps| > 0 && Unambiguous(ps)
    ensures ParseQuery(Query(ps)) == ps
    decreases |ps|
  {
    var k, v := ps[0].0, ps[0].1;
    var p := k + "=" + v;
    assert '&' !in p by {
      NoCharInPair(k, v, '&');
    }
    assert ParsePair(p) == ps[0] by {
      ParsePairOf(k, v);
    }
    if |ps| == 1 {
      QuerySingle(p);
    } else {
      var tail := ps[1..];
      assert Unambiguous(tail);
      QueryRoundTrip(tail);
      assert Query(ps) == p + ['&'] + Query(tail);
      QueryStep(p, Query(tail));
      assert ps == [ps[0]] + tail;
    }
  }

  lemma QuerySingle(p: string)
    requires '&' !in p
    ensures ParseQuery(p) == [ParsePair(p)]
  {
  }

  lemma QueryStep(p: string, q: string)
    requires '&' !in p
    ensures ParseQuery(p + ['&'] + q) == [ParsePair(p)] + ParseQuery(q)
  {
    SplitFirst(p, q, '&');
    var parts := SplitOn(q, '&');
    assert ([p] + parts)[1..] == parts;
  }

  lemma StripApiPrefix(rest: string)
    ensures ParseCollectionsRequest(CollectionsApi + rest) == Some(ParseQuery(rest))
  {
    var p := CollectionsApi + rest;
    assert p[..|CollectionsApi|] == CollectionsApi;
    assert p[|CollectionsApi|..] == rest;
  }

  /** A Collections API path built from unambiguous parameters reads back as exactly those parameters. */
  lemma CollectionsRequestRoundTrip(ps: seq<(string, string)>)
    requires |ps| > 0 && Unambiguous(ps)
    ensures ParseCollectionsRequest(CollectionsApi + Query(ps)) == Some(ps)
  {
    StripApiPrefix(Query(ps));
    QueryRoundTrip(ps);
  }

  /** A CREATEALIAS path reads back as action, alias name and collection when neither name contains `&`. */
  lemma CreateAliasPathRoundTrip(collection: string, alias: string)
    requires '&' !in alias && '&' !in collection
    ensures ParseCollectionsRequest(CreateAliasPath(collection, alias))
            == Some([("action", "CREATEALIAS"), ("name", alias), ("collections", collection)])
  {
    var ps := [("action", "CREATEALIAS"), ("name", alias), ("collections", collection)];
    assert Unambiguous(ps) by {
      UnambiguousOfThree("action", "CREATEALIAS", "name", alias, "collections", collection);
    }
    CreateAliasPathShape(collection, alias);
    CollectionsRequestRoundTrip(ps);
  }

  /** The CREATEALIAS path is the query action=CREATEALIAS, name, collections, with both names spliced in as they are. */
  lemma CreateAliasPathShape(collection: string, alias: string)
    ensures CreateAliasPath(collection, alias)
            == CollectionsApi + Query([("action", "CREATEALIAS"), ("name", alias), ("collections", collection)])
  {
    CreateAliasPrefix();
    CollectionsInfix();
    QueryOfThree(CollectionsApi, "action=CREATEALIAS&name=", "action", "CREATEALIAS", "name", alias,
                 "&collections=", "collections", collection);
  }

  /** A DELETEALIAS path reads back as action and alias name when the name contains no `&`. */
  lemma DeleteAliasPathRoundTrip(alias: string)
    requires '&' !in alias
    ensures ParseCollectionsRequest(DeleteAliasPath(alias)) == Some([("action", "DELETEALIAS"), ("name", alias)])
  {
    var ps := [("action", "DELETEALIAS"), ("name", alias)];
    assert Unambiguous(ps);
    DeleteAliasPrefix();
    QueryOfTwo(CollectionsApi, "action=DELETEALIAS&name=", "action", "DELETEALIAS", "name", alias);
    CollectionsRequestRoundTrip(ps);
  }

  /** The LISTALIASES path reads back as the single action parameter. */
  lemma ListAliasesPathRoundTrip()
    ensures ParseCollectionsRequest(ListAliasesPath) == Some([("action", "LISTALIASES")])
  {
    var ps := [("action", "LISTALIASES")];
    assert Unambiguous(ps);
    assert "action=LISTALIASES" == "action" + "=" + "LISTALIASES";
    assert Query(ps) == "action" + "=" + "LISTALIASES";
    CollectionsRequestRoundTrip(ps);
  }

  /**
   * Because nothing is escaped, an alias name that contains `&collections=`
   * smuggles in a parameter of its own: the request reads back with a shorter
   * alias name and the smuggled collection listed before the real one.
   */
  lemma AliasNameInjection(collection: string, name: string, smuggled: string)
    requires '&' !in name && '&' !in smuggled && '&' !in collection
    ensures ParseCollectionsRequest(CreateAliasPath(collection, name + "&collections=" + smuggled))
            == Some([("action", "CREATEALIAS"), ("name", name), ("collections", smuggled), ("collections", collection)])
  {
    var ps := [("action", "CREATEALIAS"), ("name", name), ("collections", smuggled), ("collections", collection)];
    assert Unambiguous(ps) by {
      UnambiguousOfFour("action", "CREATEALIAS", "name", name, "collections", smuggled, collection);
    }
    assert CreateAliasPath(collection, name + "&collections=" + smuggled) == CollectionsApi + Query(ps) by {
      CreateAliasPrefix();
      CollectionsInfix();
      QueryOfFour(CollectionsApi, "action=CREATEALIAS&name=", "action", "CREATEALIAS", "name", name,
                  "&collections=", "collections", smuggled, collection);
    }
    CollectionsRequestRoundTrip(ps);
  }

  // Proof helpers: the literal pieces of the request paths, regrouped as
  // `key=value` parts, stated apart so that the solver splits each literal once.

  lemma CreateAliasPrefix()
    ensures "action=CREATEALIAS&name=" == "action" + "=" + "CREATEALIAS" + "&" + "name" + "="
  {
  }

  lemma DeleteAliasPrefix()
    ensures "action=DELETEALIAS&name=" == "action" + "=" + "DELETEALIAS" + "&" + "name" + "="
  {
  }

  lemma CollectionsInfix()
    ensures "&collections=" == "&" + "collections" + "="
  {
  }

  lemma UnambiguousOfThree(k1: string, v1: string, k2: string, v2: string, k3: string, v3: string)
    requires '=' !in k1 && '&' !in k1 && '&' !in v1
    requires '=' !in k2 && '&' !in k2 && '&' !in v2
    requires '=' !in k3 && '&' !in k3 && '&' !in v3
    ensures Unambiguous([(k1, v1), (k2, v2), (k3, v3)])
  {
  }

  lemma UnambiguousOfFour(k1: string, v1: string, k2: string, v2: string, k3: string, v3: string, v4: string)
    requires '=' !in k1 && '&' !in k1 && '&' !in v1
    requires '=' !in k2 && '&' !in k2 && '&' !in v2
    requires '=' !in k3 && '&' !in k3 && '&' !in v3 && '&' !in v4
    ensures Unambiguous([(k1, v1), (k2, v2), (k3, v3), (k3, v4)])
  {
  }

  lemma QueryOfTwo(api: string, pre: string, k1: string, v1: string, k2: string, v2: string)
    requires pre == k1 + "=" + v1 + "&" + k2 + "="
    ensures api + pre + v2 == api + Query([(k1, v1), (k2, v2)])
  {
    var ps := [(k1, v1), (k2, v2)];
    assert Query(ps[1..]) == k2 + "=" + v2 by {
      assert ps[1..] == [(k2, v2)];
    }
  }

  lemma QueryOfThree(api: string, pre: string, k1: string, v1: string, k2: string, v2: string,
                     mid: string, k3: string, v3: string)
    requires pre == k1 + "=" + v1 + "&" + k2 + "="
    requires mid == "&" + k3 + "="
    ensures api + pre + v2 + mid + v3 == api + Query([(k1, v1), (k2, v2), (k3, v3)])
  {
    var ps := [(k1, v1), (k2, v2), (k3, v3)];
    assert Query(ps[2..]) == k3 + "=" + v3 by {
      assert ps[2..] == [(k3, v3)];
    }
    assert Query(ps[1..]) == k2 + "=" + v2 + "&" + Query(ps[2..]) by {
      assert ps[1..][1..] == ps[2..];
    }
  }

  lemma QueryOfFour(api: string, pre: string, k1: string, v1: string, k2: string, v2: string,
                    mid: string, k3: string, v3: string, v4: string)
    requires pre == k1 + "=" + v1 + "&" + k2 + "="
    requires mid == "&" + k3 + "="
    ensures api + pre + (v2 + mid + v3) + mid + v4 == api + Query([(k1, v1), (k2, v2), (k3, v3), (k3, v4)])
  {
    var ps := [(k1, v1), (k2, v2), (k3, v3), (k3, v4)];
    assert Query(ps[3..]) == k3 + "=" + v4 by {
      assert ps[3..] == [(k3, v4)];
    }
    assert Query(ps[2..]) == k3 + "=" + v3 + "&" + Query(ps[3..]) by {
      assert ps[2..][1..] == ps[3..];
    }
    assert Query(ps[1..]) == k2 + "=" + v2 + "&" + Query(ps[2..]) by {
      assert ps[1..][1..] == ps[2..];
    }
    Flatten(api, k1, v1, k2, v2, k3, v3, v4, "=", "&");
  }

  /** Proof helper: regroups the concatenation behind AliasNameInjection over plain variables. */
  lemma Flatten(api: string, k1: string, v1: string, k2: string, v2: string, k3: string, v3: string, v4: string,
                e: string, a: string)
    ensures api + (k1 + e + v1 + a + k2 + e) + (v2 + (a + k3 + e) + v3) + (a + k3 + e) + v4
            == api + (k1 + e + v1 + a + (k2 + e + v2 + a + (k3 + e + v3 + a + (k3 + e + v4))))
  {
  }

  /** Cutting `x + [c] + y` at its first `c` gives back `x` and `y` when `x` has no `c`. */
  lemma CutAtFirst(x: string, c: char, y: string)
    requires c !in x
    ensures c in x + [c] + y
    ensures IndexOf(x + [c] + y, c) == |x|
    ensures (x + [c] + y)[..|x|] == x && (x + [c] + y)[|x| + 1..] == y
  {
    assert x + [c] + y == x + ([c] + y);
    IndexOfFirst(x, [c] + y, c);
  }

  lemma PortAndPathRoundTrip(port: int, path: string)
    requires 0 < port <= MaxPort
    ensures ParsePortAndPath(IntToString(port) + "/solr/" + path) == Some((port, path))
  {
    var ds := IntToString(port);
    assert '/' !in ds && ParseInt(ds) == Some(port) by {
      IntToStringRoundTrip(port);
    }
    PortAndPathOf(ds, port, path);
  }

  lemma PortAndPathOf(ds: string, port: int, path: string)
    requires '/' !in ds && ParseInt(ds) == Some(port) && 0 < port <= MaxPort
    ensures ParsePortAndPath(ds + "/solr/" + path) == Some((port, path))
  {
    var sl := "/solr/";
    assert sl == ['/'] + "solr/" && |sl| == 6;
    var s := ds + sl + path;
    CutAtFirst(ds, '/', "solr/" + path);
    assert s == ds + ['/'] + ("solr/" + path);
    TailAfter(ds, sl, path);
  }

  lemma TailAfter(ds: string, sl: string, path: string)
    ensures (ds + sl + path)[|ds|..] == sl + path
    ensures (sl + path)[..|sl|] == sl && (sl + path)[|sl|..] == path
  {
  }

  lemma HostPortPathRoundTrip(host: string, pp: string, port: int, path: string)
    requires DelimitedHost(host)
    requires ParsePortAndPath(pp) == Some((port, path))
    ensures ParseHostPortPath(host + [':'] + pp) == Some((host, port, path))
  {
    if |host| > 0 && host[0] == '[' {
      BracketedHostCut(host, pp);
    } else {
      CutAtFirst(host, ':', pp);
      assert (host + [':'] + pp)[0] == host[0];
    }
  }

  /** Proof helper: a bracketed host is cut at its closing `]`, leaving `:` and the rest. */
  lemma BracketedHostCut(host: string, pp: string)
    requires |host| >= 2 && host[0] == '[' && host[|host| - 1] == ']' && ']' !in host[..|host| - 1]
    ensures var s := host + [':'] + pp;
            && |s| > 0 && s[0] == '[' && ']' in s
            && IndexOf(s, ']') == |host| - 1
            && s[..|host|] == host
            && s[|host|..] == [':'] + pp
  {
    var inner := host[..|host| - 1];
    assert host == inner + [']'];
    var s := host + [':'] + pp;
    assert s == inner + [']'] + ([':'] + pp);
    CutAtFirst(inner, ']', [':'] + pp);
  }

  lemma SchemeCut(e: Endpoint, rest: string, hpp: string, path: string)
    requires WebScheme(e.scheme)
    requires |rest| >= 2 && rest[..2] == "//" && rest[2..] == hpp
    requires ParseHostPortPath(hpp) == Some((e.host, e.port, path))
    ensures ParseAdminUrl(e.scheme + [':'] + rest) == Some((e, path))
  {
    CutAtFirst(e.scheme, ':', rest);
  }

  /** Proof helper: the grouping of AdminUrl that the parser proofs cut at. */
  lemma AdminUrlShape(e: Endpoint, path: string)
    ensures AdminUrl(e, path) == e.scheme + [':'] + ("//" + (e.host + [':'] + (IntToString(e.port) + "/solr/" + path)))
  {
  }

  /**
   * Every admin URL is `scheme://host:port/solr/path`, unambiguously: when the
   * scheme contains no `:` and the host is delimited (no `:`, or a bracketed
   * IPv6 literal), the endpoint and the path are recovered.
   */
  lemma AdminUrlRoundTrip(e: Endpoint, path: string)
    requires ReadableEndpoint(e)
    ensures ParseAdminUrl(AdminUrl(e, path)) == Some((e, path))
  {
    var pp := IntToString(e.port) + "/solr/" + path;
    PortAndPathRoundTrip(e.port, path);
    var hpp := e.host + [':'] + pp;
    HostPortPathRoundTrip(e.host, pp, e.port, path);
    var rest := "//" + hpp;
    assert rest[..2] == "//" && rest[2..] == hpp;
    SchemeCut(e, rest, hpp, path);
    AdminUrlShape(e, path);
  }

  /** A bracketed IPv6 host such as `[::1]` gives a URL that reads back as its endpoint and path. */
  lemma BracketedIpv6HostReadable(scheme: string, port: int, path: string)
    requires WebScheme(scheme) && 0 < port <= MaxPort
    ensures ParseAdminUrl(AdminUrl(Endpoint(scheme, "[::1]", port), path)) == Some((Endpoint(scheme, "[::1]", port), path))
  {
    assert DelimitedHost("[::1]") by {
      assert "[::1]"[..4] == "[::1";
    }
    AdminUrlRoundTrip(Endpoint(scheme, "[::1]", port), path);
  }

  /** A bracket-less IPv6 host makes the URL unreadable: the `:` inside the host is taken for the port separator. */
  lemma Ipv6HostBreaksUrl(e: Endpoint, path: string)
    requires ':' !in e.scheme && e.host == "::1"
    ensures ParseAdminUrl(AdminUrl(e, path)) == None
  {
    var ds := IntToString(e.port);
    IntToStringRoundTrip(e.port);
    var head := ":1:" + ds;
    assert '/' !in head;
    assert ParseInt(head) == None by {
      assert head[0] == ':' && !AllDigits(head);
    }
    var pp := head + ['/'] + ("solr/" + path);
    PortAndPathRejects(head, "solr/" + path);
    Ipv6HostRest(e, path, ds, head, pp);
  }

  lemma Ipv6HostRest(e: Endpoint, path: string, ds: string, head: string, pp: string)
    requires ':' !in e.scheme && e.host == "::1"
    requires ds == IntToString(e.port) && head == ":1:" + ds && pp == head + ['/'] + ("solr/" + path)
    requires ParsePortAndPath(pp) == None
    ensures ParseAdminUrl(AdminUrl(e, path)) == None
  {
    var hpp := e.host + [':'] + (ds + "/solr/" + path);
    assert ParseHostPortPath([] + [':'] + pp) == None by {
      HostPortPathRejects(pp);
      assert [] + [':'] + pp == [':'] + pp;
    }
    assert hpp == [] + [':'] + pp by {
      Ipv6Pieces();
      Regroup(":", ":1", "/", "solr/", ds, path);
    }
    UrlRejected(e, path, hpp);
  }

  /** Proof helper: the literal splits used by Ipv6HostRest. */
  lemma Ipv6Pieces()
    ensures "::1" == ":" + ":1" && ":1:" == ":1" + ":" && "/solr/" == "/" + "solr/"
  {
  }

  /** Proof helper: regroups the IPv6 URL over plain variables. */
  lemma Regroup(c: string, t: string, sl: string, so: string, ds: string, path: string)
    ensures (c + t) + c + (ds + (sl + so) + path) == [] + c + ((t + c + ds) + sl + (so + path))
  {
  }

  lemma UrlRejected(e: Endpoint, path: string, hpp: string)
    requires ':' !in e.scheme
    requires hpp == e.host + [':'] + (IntToString(e.port) + "/solr/" + path)
    requires ParseHostPortPath(hpp) == None
    ensures ParseAdminUrl(AdminUrl(e, path)) == None
  {
    AdminUrlShape(e, path);
    SchemeCutRejects(e.scheme, hpp);
  }

  /** A port outside 1..65535 makes the URL unreadable, as PHP's URL parser refuses it. */
  lemma PortOutOfRangeRejected(e: Endpoint, path: string)
    requires WebScheme(e.scheme) && DelimitedHost(e.host) && !(0 < e.port <= MaxPort)
    ensures ParseAdminUrl(AdminUrl(e, path)) == None
  {
    var ds := IntToString(e.port);
    assert '/' !in ds && ParseInt(ds) == Some(e.port) by {
      IntToStringRoundTrip(e.port);
    }
    var pp := ds + "/solr/" + path;
    assert ParsePortAndPath(pp) == None by {
      assert pp == ds + ['/'] + ("solr/" + path);
      CutAtFirst(ds, '/', "solr/" + path);
    }
    DelimitedHostRejects(e.host, pp);
    UrlRejected(e, path, e.host + [':'] + pp);
  }

  /** A scheme other than http or https is not fetched over HTTP, so the URL is not read as an admin request. */
  lemma OtherSchemeRejected(e: Endpoint, path: string)
    requires ':' !in e.scheme && !WebScheme(e.scheme)
    ensures ParseAdminUrl(AdminUrl(e, path)) == None
  {
    AdminUrlShape(e, path);
    CutAtFirst(e.scheme, ':', "//" + (e.host + [':'] + (IntToString(e.port) + "/solr/" + path)));
  }

  /** An empty host, or one holding `/`, `?` or `#`, makes the URL unreadable: PHP would read a different host and path. */
  lemma BadHostRejected(e: Endpoint, path: string)
    requires WebScheme(e.scheme) && ':' !in e.host && (|e.host| == 0 || e.host[0] != '[') && !HostText(e.host)
    ensures ParseAdminUrl(AdminUrl(e, path)) == None
  {
    var pp := IntToString(e.port) + "/solr/" + path;
    var s := e.host + [':'] + pp;
    CutAtFirst(e.host, ':', pp);
    assert s[0] != '[' by {
      if |e.host| == 0 {
        assert s[0] == ':';
      } else {
        assert s[0] == e.host[0];
      }
    }
    UrlRejected(e, path, s);
  }

  lemma DelimitedHostRejects(host: string, pp: string)
    requires DelimitedHost(host) && ParsePortAndPath(pp) == None
    ensures ParseHostPortPath(host + [':'] + pp) == None
  {
    if host[0] == '[' {
      BracketedHostCut(host, pp);
    } else {
      CutAtFirst(host, ':', pp);
      assert (host + [':'] + pp)[0] == host[0];
    }
  }

  lemma PortAndPathRejects(head: string, tail: string)
    requires '/' !in head && ParseInt(head) == None
    ensures ParsePortAndPath(head + ['/'] + tail) == None
  {
    CutAtFirst(head, '/', tail);
  }

  lemma HostPortPathRejects(pp: string)
    requires ParsePortAndPath(pp) == None
    ensures ParseHostPortPath([':'] + pp) == None
  {
    CutAtFirst([], ':', pp);
    assert ([] + [':'] + pp) == [':'] + pp;
  }

  lemma SchemeCutRejects(scheme: string, hpp: string)
    requires ':' !in scheme && ParseHostPortPath(hpp) == None
    ensures ParseAdminUrl(scheme + [':'] + ("//" + hpp)) == None
  {
    var rest := "//" + hpp;
    CutAtFirst(scheme, ':', rest);
    assert rest[..2] == "//" && rest[2..] == hpp;
  }
}

=== FILE: alias_table.dfy ===
/**
 * The alias queries of CollectionManager: getAliases, hasAlias and
 * getAliasedCollection, over the alias => collection array that LISTALIASES
 * reports, in the order the cluster reports it.
 */
module AliasTable {
  import opened Wrappers
  import opened Decimal
  import opened PhpArray

  /** The `aliases` array of a LISTALIASES reply: alias name => collection name. */
  type AliasMap = OrderedMap<string>

  /** getAliases: the alias names, in reported order. */
  function AliasNames(m: AliasMap): (names: seq<string>)
    ensures |names| == |m|
    ensures forall i :: 0 <= i < |m| ==> names[i] == m[i].0
    ensures forall i, j :: 0 <= i < j < |names| ==> names[i] != names[j]
  {
    Keys(m)
  }

  /** getAliasedCollection: `$mappings[$alias] ?? null`. */
  function AliasedCollection(m: AliasMap, alias: string): (r: Option<string>)
    ensures r.Some? <==> alias in AliasNames(m)
    ensures forall c :: r == Some(c) <==> (alias, c) in m
  {
    forall c
      ensures Get(m, alias) == Some(c) <==> (alias, c) in m
    {
      GetDistinct(m, alias, c);
    }
    Get(m, alias)
  }

  /** PHP's non-strict in_array over strings: some element compares loosely equal to the needle. */
  predicate InArrayLoose(needle: string, hay: seq<string>)
  {
    exists i :: 0 <= i < |hay| && LooseEquals(needle, hay[i])
  }

  /** hasAlias as written: `in_array($alias, $this->getAliases())`, without the strict flag. */
  predicate HasAlias(m: AliasMap, alias: string)
  {
    InArrayLoose(alias, AliasNames(m))
  }

  /**
   * hasAlias with a strict comparison: the alias is one of the listed names,
   * which is exactly when getAliasedCollection finds a collection for it.
   */
  function HasAliasStrict(m: AliasMap, alias: string): (r: bool)
    ensures r <==> AliasedCollection(m, alias).Some?
    ensures r <==> exists i :: 0 <= i < |m| && m[i].0 == alias
  {
    alias in AliasNames(m)
  }

  /** Every listed alias passes the loose test. */
  lemma ListedAliasPasses(m: AliasMap, alias: string)
    requires alias in AliasNames(m)
    ensures HasAlias(m, alias)
  {
    var i :| 0 <= i < |AliasNames(m)| && AliasNames(m)[i] == alias;
    assert LooseEquals(alias, AliasNames(m)[i]);
  }

  /** For a name that is not a numeric string of any form the loose test is the strict one. */
  lemma LooseIsStrictForNonNumeric(m: AliasMap, alias: string)
    requires !IsNumericString(alias)
    ensures HasAlias(m, alias) <==> HasAliasStrict(m, alias)
  {
    if IntegerNumericValue(alias).Some? {
      IntegerNumericIsNumeric(alias);
    }
    if HasAlias(m, alias) {
      var i :| 0 <= i < |AliasNames(m)| && LooseEquals(alias, AliasNames(m)[i]);
    }
    if HasAliasStrict(m, alias) {
      ListedAliasPasses(m, alias);
    }
  }

  /** "010" and "10" are both integer numeric strings with the value 10. */
  lemma TenTwins()
    ensures IntegerNumericValue("010") == Some(10)
    ensures IntegerNumericValue("10") == Some(10)
  {
    assert TrimLeft("010") == "010";
    assert TrimRight("010") == "010";
    assert DigitsValue("010") == 10 by {
      assert "010"[..2] == "01";
      assert "01"[..1] == "0";
      assert "0"[..0] == "";
    }
    assert TrimLeft("10") == "10";
    assert TrimRight("10") == "10";
    assert DigitsValue("10") == 10 by {
      assert "10"[..1] == "1";
      assert "1"[..0] == "";
    }
  }

  /** The loose test accepts an unlisted integer numeric name when a listed name has the same value within 64 bits. */
  lemma NumericTwinPasses(m: AliasMap, alias: string, listed: string)
    requires listed in AliasNames(m)
    requires IntegerNumericValue(alias).Some? && IntegerNumericValue(alias) == IntegerNumericValue(listed)
    requires InInt64(IntegerNumericValue(alias).value)
    ensures HasAlias(m, alias)
  {
    var i :| 0 <= i < |AliasNames(m)| && AliasNames(m)[i] == listed;
    assert LooseEquals(alias, AliasNames(m)[i]);
  }

  /**
   * The loose test disagrees with the lookup: with only alias "10" listed,
   * hasAlias("010") holds while getAliasedCollection("010") is null.
   */
  lemma NumericAliasMismatch(collection: string)
    ensures HasAlias([("10", collection)], "010")
    ensures AliasedCollection([("10", collection)], "010") == None
    ensures !HasAliasStrict([("10", collection)], "010")
  {
    var m: AliasMap := [("10", collection)];
    assert AliasNames(m) == ["10"];
    TenTwins();
    NumericTwinPasses(m, "010", "10");
    assert "010" !in AliasNames(m);
  }
}

=== FILE: create_options.dfy ===
/**
 * The option handling of CollectionManager::create: rejecting unknown option
 * keys, merging the caller's options over the five defaults, and building the
 * CREATE action that is sent to the cluster.
 */
module CreateOptions {
  import opened Wrappers
  import opened PhpArray

  /** The PHP values a caller may put in the option array. */
  datatype Value = Null | Int(i: int) | Str(s: string)

  /** The caller's option array. */
  type Options = OrderedMap<Value>

  /** The `$defaults` array, in its declared order. */
  const Defaults: seq<(string, Value)> := [
    ("num_shards", Int(1)),
    ("router_name", Str("compositeId")),
    ("nrt_replicas", Int(1)),
    ("tlog_replicas", Int(0)),
    ("pull_replicas", Int(0))
  ]

  /** The option keys `create` accepts. */
  const Recognised: set<string> := {"num_shards", "router_name", "nrt_replicas", "tlog_replicas", "pull_replicas"}

  /** A collection CREATE action: the name plus the five settings passed to its setters. */
  datatype CreateAction = CreateAction(
    name: string,
    numShards: Value,
    routerName: Value,
    nrtReplicas: Value,
    pullReplicas: Value,
    tlogReplicas: Value)

  /** The InvalidArgumentException thrown for unrecognised option keys, with the keys it lists. */
  datatype OptionsError = UnknownOptions(keys: seq<string>)

  /** Reading `$a[$k]` as an rvalue: a missing key reads as null (PHP only emits a warning). */
  function Read(a: seq<(string, Value)>, k: string): Value
  {
    Get(a, k).GetOr(Null)
  }

  /** `$l ?? $r`, where `l` is the left operand's array read (None when the key is absent). */
  function Coalesce(l: Option<Value>, r: Value): Value
  {
    match l
    case Some(v) => if v != Null then v else r
    case None => r
  }

  /** The keys of array_diff_key($options, $defaults), in input order. */
  function UnknownKeys(opts: seq<(string, Value)>): seq<string>
  {
    Keys(DiffKey(opts, Defaults))
  }

  /** The value a recognised key ends up with: the caller's value when supplied, the default otherwise. */
  function Resolved(opts: seq<(string, Value)>, k: string): Value
  {
    match Get(opts, k)
    case Some(v) => v
    case None => Read(Defaults, k)
  }

  /** CollectionManager::create up to the point where the action is handed to the client. */
  function BuildCreate(name: string, opts: Options): (r: Result<CreateAction, OptionsError>)
    ensures r.Err? <==> exists i :: 0 <= i < |opts| && opts[i].0 !in Recognised
    ensures r.Err? ==> forall k :: k in r.error.keys <==> k in Keys(opts) && k !in Recognised
    ensures r.Err? ==> r.error.keys == UnknownKeys(opts)
    ensures r.Ok? ==> r.value == CreateAction(
                         name,
                         Resolved(opts, "num_shards"),
                         Resolved(opts, "router_name"),
                         Resolved(opts, "nrt_replicas"),
                         Resolved(opts, "pull_replicas"),
                         Resolved(opts, "tlog_replicas"))
  {
    UnknownKeysExact(opts);
    var unknown := DiffKey(opts, Defaults);
    if |unknown| > 0 then
      Err(UnknownOptions(Keys(unknown)))
    else
      var merged := Merge(Defaults, opts);
      NrtFallbackInert(opts);
      MergedReadsResolve(opts, "num_shards");
      MergedReadsResolve(opts, "router_name");
      MergedReadsResolve(opts, "pull_replicas");
      MergedReadsResolve(opts, "tlog_replicas");
      Ok(CreateAction(
           name,
           Read(merged, "num_shards"),
           Read(merged, "router_name"),
           Coalesce(Get(merged, "nrt_replicas"), Read(merged, "replication_factor")),
           Read(merged, "pull_replicas"),
           Read(merged, "tlog_replicas")))
  }

  /** array_diff_key against the defaults lists exactly the unrecognised keys, and is empty exactly when there are none. */
  lemma UnknownKeysExact(opts: seq<(string, Value)>)
    ensures |UnknownKeys(opts)| > 0 <==> exists i :: 0 <= i < |opts| && opts[i].0 !in Recognised
    ensures forall k :: k in UnknownKeys(opts) <==> k in Keys(opts) && k !in Recognised
  {
    DefaultKeys();
    WithoutKeys(opts, Recognised);
  }

  /** Reading a key of the merged array gives the caller's value if supplied, else the default. */
  lemma MergedReadsResolve(opts: seq<(string, Value)>, k: string)
    ensures Read(Merge(Defaults, opts), k) == Resolved(opts, k)
  {
    var m := Merge(Defaults, opts);
    assert Get(m, k) == if k in Keys(opts) then Get(opts, k) else Get(Defaults, k);
  }

  lemma DefaultKeys()
    ensures Keys(Defaults) == ["num_shards", "router_name", "nrt_replicas", "tlog_replicas", "pull_replicas"]
    ensures KeySet(Defaults) == Recognised
    ensures forall k :: k in Keys(Defaults) <==> k in Recognised
  {
    var ks := ["num_shards", "router_name", "nrt_replicas", "tlog_replicas", "pull_replicas"];
    assert Keys(Defaults) == ks;
    assert forall k :: k in ks <==> k in Recognised;
  }

  lemma DefaultValues()
    ensures Get(Defaults, "num_shards") == Some(Int(1))
    ensures Get(Defaults, "router_name") == Some(Str("compositeId"))
    ensures Get(Defaults, "nrt_replicas") == Some(Int(1))
    ensures Get(Defaults, "tlog_replicas") == Some(Int(0))
    ensures Get(Defaults, "pull_replicas") == Some(Int(0))
    ensures Get(Defaults, "replication_factor") == None
  {
    DefaultKeys();
  }

  /**
   * The `?? $options['replication_factor']` fallback never changes the outcome:
   * the merged array never holds replication_factor, so the fallback reads null,
   * and it is reached only when nrt_replicas was passed as an explicit null.
   */
  lemma NrtFallbackInert(opts: Options)
    requires forall i :: 0 <= i < |opts| ==> opts[i].0 in Recognised
    ensures Read(Merge(Defaults, opts), "replication_factor") == Null
    ensures Get(Merge(Defaults, opts), "nrt_replicas").Some?
    ensures Get(Merge(Defaults, opts), "nrt_replicas") == Some(Null) <==> Get(opts, "nrt_replicas") == Some(Null)
    ensures Coalesce(Get(Merge(Defaults, opts), "nrt_replicas"), Read(Merge(Defaults, opts), "replication_factor"))
            == Resolved(opts, "nrt_replicas")
  {
    DefaultValues();
    var m := Merge(Defaults, opts);
    assert "replication_factor" !in Keys(opts) by {
      assert "replication_factor" !in Recognised;
    }
    assert Get(m, "replication_factor") == Get(Defaults, "replication_factor");
    assert Get(m, "nrt_replicas") == if "nrt_replicas" in Keys(opts) then Get(opts, "nrt_replicas") else Get(Defaults, "nrt_replicas");
  }

  /** The keys an unknown-options error lists follow the input order: the listing distributes over concatenation. */
  lemma UnknownKeysInInputOrder(o1: seq<(string, Value)>, o2: seq<(string, Value)>)
    ensures UnknownKeys(o1 + o2) == UnknownKeys(o1) + UnknownKeys(o2)
  {
    WithoutConcat(o1, o2, KeySet(Defaults));
    KeysConcat(DiffKey(o1, Defaults), DiffKey(o2, Defaults));
  }

  /** A single option is listed as unknown exactly when its key is not one of the five recognised keys. */
  lemma UnknownKeysSingle(k: string, v: Value)
    ensures UnknownKeys([(k, v)]) == if k in Recognised then [] else [k]
  {
    assert KeySet(Defaults) == Recognised by {
      DefaultKeys();
    }
    var d := Without([(k, v)], Recognised);
    assert d == if k in Recognised then [] else [(k, v)] by {
      assert [(k, v)][1..] == [];
    }
    assert Keys(d) == if k in Recognised then [] else [k];
  }

  /** `create(name)` with no options resolves every setting to its default. */
  lemma DefaultCreate(name: string)
    ensures BuildCreate(name, []) == Ok(CreateAction(name, Int(1), Str("compositeId"), Int(1), Int(0), Int(0)))
  {
    assert BuildCreate(name, []).Ok?;
    DefaultValues();
  }

  /** replication_factor, documented as an alias of nrt_replicas, is rejected as an unknown option. */
  lemma ReplicationFactorRejected(name: string, opts: Options)
    requires "replication_factor" in Keys(opts)
    ensures BuildCreate(name, opts).Err?
    ensures "replication_factor" in BuildCreate(name, opts).error.keys
  {
    var i :| 0 <= i < |opts| && opts[i].0 == "replication_factor";
    assert "replication_factor" !in Recognised;
  }

  /** Supplied options override the defaults key by key; unspecified keys keep their defaults. */
  lemma SuppliedOverridesDefault(name: string, opts: Options, k: string, v: Value)
    requires forall i :: 0 <= i < |opts| ==> opts[i].0 in Recognised
    requires (k, v) in opts
    ensures BuildCreate(name, opts).Ok?
    ensures k == "num_shards" ==> BuildCreate(name, opts).value.numShards == v
    ensures k == "router_name" ==> BuildCreate(name, opts).value.routerName == v
    ensures k == "nrt_replicas" ==> BuildCreate(name, opts).value.nrtReplicas == v
    ensures k == "pull_replicas" ==> BuildCreate(name, opts).value.pullReplicas == v
    ensures k == "tlog_replicas" ==> BuildCreate(name, opts).value.tlogReplicas == v
  {
    GetDistinct(opts, k, v);
  }
}

=== FILE: decimal.dfy ===
/** How PHP turns integers into decimal strings and recognises numeric strings. */
module Decimal {
  import opened Wrappers

  predicate IsDigit(ch: char)
  {
    '0' <= ch <= '9'
  }

  predicate AllDigits(s: string)
  {
    forall i :: 0 <= i < |s| ==> IsDigit(s[i])
  }

  function DigitChar(d: nat): (ch: char)
    requires d < 10
    ensures IsDigit(ch)
    ensures ch as int - '0' as int == d
  {
    ('0' as int + d) as char
  }

  /** The decimal digits of a natural number, most significant first. */
  function NatToString(n: nat): string
    decreases n
  {
    if n < 10 then [DigitChar(n)] else NatToString(n / 10) + [DigitChar(n % 10)]
  }

  /** The value of a string of decimal digits (leading zeros allowed). */
  function DigitsValue(s: string): nat
    requires AllDigits(s)
    decreases |s|
  {
    if |s| == 0 then 0
    else DigitsValue(s[..|s| - 1]) * 10 + (s[|s| - 1] as int - '0' as int)
  }

  /** String interpolation of a PHP int: optional minus sign, then the digits. */
  function IntToString(i: int): string
  {
    if i < 0 then "-" + NatToString(-i) else NatToString(i)
  }

  /** Reads back a string produced by IntToString: an optional minus sign and at least one digit. */
  function ParseInt(s: string): Option<int>
  {
    if |s| > 0 && s[0] == '-' then
      (if |s| > 1 && AllDigits(s[1..]) then Some(-(DigitsValue(s[1..]) as int)) else None)
    else if |s| > 0 && AllDigits(s) then Some(DigitsValue(s))
    else None
  }

  lemma {:induction false} NatToStringDigits(n: nat)
    ensures |NatToString(n)| > 0
    ensures AllDigits(NatToString(n))
    ensures DigitsValue(NatToString(n)) == n
    decreases n
  {
    if n >= 10 {
      NatToStringDigits(n / 10);
      var s := NatToString(n);
      assert s[..|s| - 1] == NatToString(n / 10);
    }
  }

  /** Rendering a port number and reading it back gives the same number; the text has no separator characters. */
  lemma IntToStringRoundTrip(i: int)
    ensures ParseInt(IntToString(i)) == Some(i)
    ensures forall k :: 0 <= k < |IntToString(i)| ==> IntToString(i)[k] == '-' || IsDigit(IntToString(i)[k])
  {
    if i < 0 {
      NatToStringDigits(-i);
      assert IntToString(i)[1..] == NatToString(-i);
    } else {
      NatToStringDigits(i);
    }
  }

  // PHP 8 numeric strings, integer form: surrounding whitespace, an optional sign, then digits.

  predicate IsPhpWhitespace(ch: char)
  {
    ch == ' ' || ch == '\t' || ch == '\n' || ch == '\r' || ch == '\U{B}' || ch == '\U{C}'
  }

  function TrimLeft(s: string): (t: string)
    ensures |t| <= |s|
    ensures |t| > 0 ==> !IsPhpWhitespace(t[0])
    decreases |s|
  {
    if |s| > 0 && IsPhpWhitespace(s[0]) then TrimLeft(s[1..]) else s
  }

  function TrimRight(s: string): (t: string)
    ensures |t| <= |s|
    ensures |t| > 0 ==> !IsPhpWhitespace(t[|t| - 1])
    decreases |s|
  {
    if |s| > 0 && IsPhpWhitespace(s[|s| - 1]) then TrimRight(s[..|s| - 1]) else s
  }

  /** The integer a string denotes when PHP 8 treats it as an integer numeric string, else None. */
  function IntegerNumericValue(s: string): Option<int>
  {
    var t := TrimRight(TrimLeft(s));
    if |t| > 1 && t[0] == '-' && AllDigits(t[1..]) then Some(-(DigitsValue(t[1..]) as int))
    else if |t| > 1 && t[0] == '+' && AllDigits(t[1..]) then Some(DigitsValue(t[1..]))
    else if |t| > 0 && AllDigits(t) then Some(DigitsValue(t))
    else None
  }

  // PHP 8 numeric strings in general: the integer form, or a decimal fraction, or an exponent.

  /** Digits with at most one `.` among them, and at least one digit. */
  predicate IsDecimalNumber(m: string)
  {
    (|m| > 0 && AllDigits(m))
    || exists i :: 0 <= i < |m| && m[i] == '.' && |m| > 1 && AllDigits(m[..i]) && AllDigits(m[i + 1..])
  }

  /** An exponent: an optional sign, then at least one digit. */
  predicate IsSignedDigits(x: string)
  {
    (|x| > 1 && (x[0] == '+' || x[0] == '-') && AllDigits(x[1..])) || (|x| > 0 && AllDigits(x))
  }

  /** A decimal number, optionally followed by `e` or `E` and an exponent. */
  predicate IsUnsignedNumber(u: string)
  {
    IsDecimalNumber(u)
    || exists i :: 0 < i < |u| && (u[i] == 'e' || u[i] == 'E') && IsDecimalNumber(u[..i]) && IsSignedDigits(u[i + 1..])
  }

  /** A PHP 8 numeric string of any form: whitespace, an optional sign, an unsigned number, whitespace. */
  predicate IsNumericString(s: string)
  {
    var t := TrimRight(TrimLeft(s));
    if |t| > 0 && (t[0] == '+' || t[0] == '-') then IsUnsignedNumber(t[1..]) else IsUnsignedNumber(t)
  }

  /** Every integer numeric string is a numeric string. */
  lemma IntegerNumericIsNumeric(s: string)
    requires IntegerNumericValue(s).Some?
    ensures IsNumericString(s)
  {
    var t := TrimRight(TrimLeft(s));
    if |t| > 0 && (t[0] == '+' || t[0] == '-') {
      assert IsDecimalNumber(t[1..]);
    } else {
      assert IsDecimalNumber(t);
    }
  }

  /** "1e1" and "10.0" are numeric strings, though not integer numeric strings. */
  lemma FloatFormsNumeric()
    ensures IsNumericString("1e1") && IntegerNumericValue("1e1").None?
    ensures IsNumericString("10.0") && IntegerNumericValue("10.0").None?
  {
    assert TrimLeft("1e1") == "1e1" && TrimRight("1e1") == "1e1";
    assert "1e1"[..1] == "1" && "1e1"[2..] == "1";
    assert IsDecimalNumber("1") && IsSignedDigits("1");
    assert "1e1"[1] == 'e';
    assert !AllDigits("1e1") by {
      assert !IsDigit("1e1"[1]);
    }
    assert TrimLeft("10.0") == "10.0" && TrimRight("10.0") == "10.0";
    assert "10.0"[..2] == "10" && "10.0"[3..] == "0";
    assert "10.0"[2] == '.';
    assert !AllDigits("10.0") by {
      assert !IsDigit("10.0"[2]);
    }
  }

  /** The range of a 64-bit PHP int. */
  predicate InInt64(x: int)
  {
    -0x8000_0000_0000_0000 <= x <= 0x7FFF_FFFF_FFFF_FFFF
  }

  /**
   * PHP 8 loose `==` between two strings: by value when both are integer
   * numeric strings within 64 bits, byte-wise otherwise. Two integer strings
   * beyond 64 bits are compared as text, as PHP 8 does when both overflow
   * the same way.
   */
  function LooseEquals(a: string, b: string): (eq: bool)
    ensures a == b ==> eq
    ensures IntegerNumericValue(a).None? ==> (eq <==> a == b)
    ensures IntegerNumericValue(a).Some? && IntegerNumericValue(b).Some?
            && InInt64(IntegerNumericValue(a).value) && InInt64(IntegerNumericValue(b).value)
            ==> (eq <==> IntegerNumericValue(a) == IntegerNumericValue(b))
  {
    match (IntegerNumericValue(a), IntegerNumericValue(b))
    case (Some(x), Some(y)) => if InInt64(x) && InInt64(y) then x == y else a == b
    case _ => a == b
  }
}

=== FILE: manager.dfy ===
/**
 * CollectionManager's commands and queries, run against a sequential stand-in
 * for the cluster. The stand-in records every request it receives. How it
 * answers is an assumption about the server, not behaviour of the manager:
 * CREATE of an existing name fails; DELETE of a missing collection, or of one
 * an alias targets, fails; collections are reported in creation order;
 * CREATEALIAS repoints an existing alias in place; DELETEALIAS of a missing
 * alias succeeds; and the cluster status of an empty cluster cannot be read as
 * a collection list. Unlike Solr, the stand-in checks neither names nor
 * settings, nor that the targets of an alias exist.
 */
module Manager {
  import opened Wrappers
  import opened PhpArray
  import opened CreateOptions
  import opened AdminPaths
  import opened AliasTable
  import Decimal

  /** A request that reaches the cluster. */
  datatype Request = CreateRequest(action: CreateAction) | DeleteRequest(name: string) | RawRequest(url: string)

  /** The stand-in cluster: its collections, its alias table and the requests it has received. */
  datatype Cluster = Cluster(collections: seq<CreateAction>, aliases: AliasMap, received: seq<Request>)

  /** What a call can throw. */
  datatype Failure =
    | InvalidOptions(keys: seq<string>)   // InvalidArgumentException from create
    | CollectionExists(name: string)      // the server refuses a duplicate CREATE
    | NoSuchCollection(name: string)      // the server refuses DELETE of a missing collection
    | CollectionAliased(name: string)     // the server refuses DELETE of a collection an alias targets
    | RequestRejected(url: string)        // the server refuses a raw request it cannot read
    | NoAliasListing                      // a reply without an `aliases` entry

  /** The decoded JSON of a raw request: an acknowledgement, or a LISTALIASES reply. */
  datatype Reply = Ack | AliasListing(aliases: AliasMap)

  /** The cluster after a call, and what the call returned or threw. */
  datatype Outcome<T> = Outcome(cluster: Cluster, result: Result<T, Failure>)

  /** What `getClusterState()->getCollections()` yields: the collection list, or the TypeError it raises. */
  datatype ClusterState = CollectionStates(states: seq<CreateAction>) | StatesTypeError

  /** The names of a list of collections, in order. */
  function Names(cs: seq<CreateAction>): (ns: seq<string>)
    ensures |ns| == |cs|
    ensures forall i :: 0 <= i < |cs| ==> ns[i] == cs[i].name
  {
    if |cs| == 0 then [] else [cs[0].name] + Names(cs[1..])
  }

  lemma NamesConcat(x: seq<CreateAction>, y: seq<CreateAction>)
    ensures Names(x + y) == Names(x) + Names(y)
  {
  }

  /** The collections other than `name`, in order. */
  function DropCollection(cs: seq<CreateAction>, name: string): (r: seq<CreateAction>)
    ensures forall n :: n in Names(r) <==> n in Names(cs) && n != name
  {
    if |cs| == 0 then []
    else
      var rest := DropCollection(cs[1..], name);
      if cs[0].name == name then rest
      else
        NamesConcat([cs[0]], rest);
        [cs[0]] + rest
  }

  // The stand-in cluster. These functions say what the server does with a request; they
  // are assumptions about the server, not behaviour of the manager.

  /** The cluster status as the client library decodes it; it fails on a cluster with no collections. */
  function StatusOf(c: Cluster): ClusterState
  {
    if |c.collections| == 0 then StatesTypeError else CollectionStates(c.collections)
  }

  function ServeCreate(c: Cluster, a: CreateAction): Outcome<()>
  {
    var c' := c.(received := c.received + [CreateRequest(a)]);
    if a.name in Names(c.collections) then Outcome(c', Err(CollectionExists(a.name)))
    else Outcome(c'.(collections := c.collections + [a]), Ok(()))
  }

  /** Some alias lists the collection among its comma-separated targets. */
  predicate AliasTarget(m: AliasMap, name: string)
  {
    exists i :: 0 <= i < |m| && name in SplitOn(m[i].1, ',')
  }

  function ServeDelete(c: Cluster, name: string): Outcome<()>
  {
    var c' := c.(received := c.received + [DeleteRequest(name)]);
    if name !in Names(c.collections) then Outcome(c', Err(NoSuchCollection(name)))
    else if AliasTarget(c.aliases, name) then Outcome(c', Err(CollectionAliased(name)))
    else Outcome(c'.(collections := DropCollection(c.collections, name)), Ok(()))
  }

  /** A raw GET: the server reads the URL's path and query parameters, taking the first value of each. */
  function ServeRaw(c: Cluster, url: string): (r: Outcome<Reply>)
    ensures r.cluster.received == c.received + [RawRequest(url)]
    ensures r.cluster.collections == c.collections
  {
    var c' := c.(received := c.received + [RawRequest(url)]);
    match ParseAdminUrl(url)
    case None => Outcome(c', Err(RequestRejected(url)))
    case Some((_, path)) =>
      match ParseCollectionsRequest(path)
      case None => Outcome(c', Err(RequestRejected(url)))
      case Some(ps) => ServeParams(c, url, ps)
  }

  // The manager.

  /** getCollections: the decoded collection list, or the empty list when decoding raises the TypeError. */
  function GetCollections(s: ClusterState): seq<CreateAction>
  {
    match s
    case CollectionStates(states) => states
    case StatesTypeError => []
  }

  /** hasCollection, asked of the current cluster status. */
  predicate HasCollection(c: Cluster, name: string)
  {
    name in Names(c.collections)
  }

  /** create: validate and resolve the options, then send one CREATE request. */
  function Create(c: Cluster, name: string, opts: Options): (r: Outcome<()>)
    ensures r.result == Err(InvalidOptions(UnknownKeys(opts))) <==> exists i :: 0 <= i < |opts| && opts[i].0 !in Recognised
    ensures r.result.Err? && r.result.error.InvalidOptions? ==> r.cluster == c
    ensures BuildCreate(name, opts).Ok? ==> r.cluster.received == c.received + [CreateRequest(BuildCreate(name, opts).value)]
    ensures r.result.Ok? <==> BuildCreate(name, opts).Ok? && !HasCollection(c, name)
    ensures r.result.Ok? ==> r.cluster.collections == c.collections + [BuildCreate(name, opts).value]
    ensures BuildCreate(name, opts).Ok? && HasCollection(c, name) ==> r.result == Err(CollectionExists(name)) && r.cluster.collections == c.collections
    ensures r.cluster.aliases == c.aliases
  {
    match BuildCreate(name, opts)
    case Err(UnknownOptions(keys)) => Outcome(c, Err(InvalidOptions(keys)))
    case Ok(a) => ServeCreate(c, a)
  }

  /** ensureCollection: create the collection with default options unless it is already there. */
  function EnsureCollection(c: Cluster, name: string): (r: Outcome<()>)
    ensures r.result.Ok?
    ensures HasCollection(r.cluster, name)
    ensures HasCollection(c, name) ==> r.cluster == c
    ensures !HasCollection(c, name) ==>
              r.cluster.collections == c.collections + [CreateAction(name, Int(1), Str("compositeId"), Int(1), Int(0), Int(0))]
    ensures r.cluster.aliases == c.aliases
  {
    DefaultCreate(name);
    if HasCollection(c, name) then Outcome(c, Ok(()))
    else
      var r := Create(c, name, []);
      NamesConcat(c.collections, [CreateAction(name, Int(1), Str("compositeId"), Int(1), Int(0), Int(0))]);
      r
  }

  /** delete: send one DELETE request. */
  function Delete(c: Cluster, name: string): (r: Outcome<()>)
    ensures r.result.Ok? <==> HasCollection(c, name) && !AliasTarget(c.aliases, name)
    ensures r.result == Err(NoSuchCollection(name)) <==> !HasCollection(c, name)
    ensures r.result == Err(CollectionAliased(name)) <==> HasCollection(c, name) && AliasTarget(c.aliases, name)
    ensures r.result.Err? ==> r.cluster.collections == c.collections
    ensures r.result.Ok? ==> !HasCollection(r.cluster, name)
    ensures r.cluster.aliases == c.aliases
    ensures forall n :: n != name ==> (HasCollection(r.cluster, n) <==> HasCollection(c, n))
    ensures r.cluster.received == c.received + [DeleteRequest(name)]
  {
    ServeDelete(c, name)
  }

  /** rawApiRequest: fetch `{scheme}://{host}:{port}/solr/{path}` from the client's endpoint. */
  function RawApiRequest(c: Cluster, e: Endpoint, path: string): (r: Outcome<Reply>)
    ensures r.cluster.received == c.received + [RawRequest(AdminUrl(e, path))]
    ensures r.cluster.collections == c.collections
  {
    ServeRaw(c, AdminUrl(e, path))
  }

  /** alias: a CREATEALIAS request with both names spliced in verbatim. */
  function Alias(c: Cluster, e: Endpoint, collection: string, alias: string): Outcome<Reply>
  {
    RawApiRequest(c, e, CreateAliasPath(collection, alias))
  }

  /** deleteAlias: a DELETEALIAS request with the name spliced in verbatim. */
  function DeleteAlias(c: Cluster, e: Endpoint, alias: string): Outcome<Reply>
  {
    RawApiRequest(c, e, DeleteAliasPath(alias))
  }

  /** getAliasMappings: the `aliases` entry of the LISTALIASES reply. */
  function GetAliasMappings(c: Cluster, e: Endpoint): Outcome<AliasMap>
  {
    var r := RawApiRequest(c, e, ListAliasesPath);
    match r.result
    case Ok(AliasListing(m)) => Outcome(r.cluster, Ok(m))
    case Ok(Ack) => Outcome(r.cluster, Err(NoAliasListing))
    case Err(f) => Outcome(r.cluster, Err(f))
  }

  /** getAliases: the names of the listed aliases. */
  function GetAliases(c: Cluster, e: Endpoint): Outcome<seq<string>>
  {
    var r := GetAliasMappings(c, e);
    match r.result
    case Ok(m) => Outcome(r.cluster, Ok(AliasNames(m)))
    case Err(f) => Outcome(r.cluster, Err(f))
  }

  /** hasAlias on the listed aliases, with the strict comparison (see AliasTable.HasAlias for the loose one as written). */
  function HasAliasOn(c: Cluster, e: Endpoint, alias: string): Outcome<bool>
  {
    var r := GetAliasMappings(c, e);
    match r.result
    case Ok(m) => Outcome(r.cluster, Ok(HasAliasStrict(m, alias)))
    case Err(f) => Outcome(r.cluster, Err(f))
  }

  /** hasAlias as written: the loose in_array over the listed alias names. */
  function HasAliasLoose(c: Cluster, e: Endpoint, alias: string): Outcome<bool>
  {
    var r := GetAliasMappings(c, e);
    match r.result
    case Ok(m) => Outcome(r.cluster, Ok(HasAlias(m, alias)))
    case Err(f) => Outcome(r.cluster, Err(f))
  }

  /** getAliasedCollection on the listed aliases. */
  function GetAliasedCollection(c: Cluster, e: Endpoint, alias: string): Outcome<Option<string>>
  {
    var r := GetAliasMappings(c, e);
    match r.result
    case Ok(m) => Outcome(r.cluster, Ok(AliasedCollection(m, alias)))
    case Err(f) => Outcome(r.cluster, Err(f))
  }

  // Properties of the manager against the stand-in cluster.


  /** getCollections reports the cluster's collections, including the empty cluster whose status raises the TypeError. */
  lemma GetCollectionsReportsCluster(c: Cluster)
    ensures GetCollections(StatusOf(c)) == c.collections
    ensures |c.collections| == 0 ==> StatusOf(c) == StatesTypeError && GetCollections(StatusOf(c)) == []
  {
  }

  lemma ServeRawOf(c: Cluster, e: Endpoint, path: string, ps: seq<(string, string)>)
    requires ReadableEndpoint(e)
    requires ParseCollectionsRequest(path) == Some(ps)
    ensures ServeRaw(c, AdminUrl(e, path)) == ServeParams(c, AdminUrl(e, path), ps)
  {
    AdminUrlRoundTrip(e, path);
  }

  /** What the stand-in does with a readable request, given its parameters. */
  function ServeParams(c: Cluster, url: string, ps: seq<(string, string)>): (r: Outcome<Reply>)
    ensures r.cluster.received == c.received + [RawRequest(url)]
    ensures r.cluster.collections == c.collections
  {
    var c' := c.(received := c.received + [RawRequest(url)]);
    var action, name, targets := Get(ps, "action"), Get(ps, "name"), Get(ps, "collections");
    if action == Some("CREATEALIAS") && name.Some? && targets.Some? then
      PutDistinct(c.aliases, name.value, targets.value);
      var aliases: AliasMap := Put(c.aliases, name.value, targets.value);
      Outcome(c'.(aliases := aliases), Ok(Ack))
    else if action == Some("DELETEALIAS") && name.Some? then
      WithoutDistinct(c.aliases, {name.value});
      var aliases: AliasMap := Remove(c.aliases, name.value);
      Outcome(c'.(aliases := aliases), Ok(Ack))
    else if action == Some("LISTALIASES") then
      Outcome(c', Ok(AliasListing(c.aliases)))
    else Outcome(c', Err(RequestRejected(url)))
  }

  /** getAliasMappings returns the cluster's alias table, in its order, and changes nothing. */
  lemma GetAliasMappingsReportsTable(c: Cluster, e: Endpoint)
    requires ReadableEndpoint(e)
    ensures GetAliasMappings(c, e).result == Ok(c.aliases)
    ensures GetAliasMappings(c, e).cluster == c.(received := c.received + [RawRequest(AdminUrl(e, ListAliasesPath))])
  {
    ListAliasesPathRoundTrip();
    ServeRawOf(c, e, ListAliasesPath, [("action", "LISTALIASES")]);
  }

  /** getAliases, hasAlias (as written and strict) and getAliasedCollection answer from the cluster's alias table. */
  lemma AliasQueriesReportTable(c: Cluster, e: Endpoint, alias: string)
    requires ReadableEndpoint(e)
    ensures GetAliases(c, e).result == Ok(AliasNames(c.aliases))
    ensures HasAliasOn(c, e, alias).result == Ok(HasAliasStrict(c.aliases, alias))
    ensures HasAliasLoose(c, e, alias).result == Ok(HasAlias(c.aliases, alias))
    ensures GetAliasedCollection(c, e, alias).result == Ok(AliasedCollection(c.aliases, alias))
  {
    GetAliasMappingsReportsTable(c, e);
  }

  /**
   * alias(collection, alias) points the alias at the collection: a new alias is
   * appended to the listing, an existing one is repointed in place.
   */
  lemma AliasPointsAt(c: Cluster, e: Endpoint, collection: string, alias: string)
    requires ReadableEndpoint(e) && QuerySafe(alias) && QuerySafe(collection)
    ensures Alias(c, e, collection, alias).result == Ok(Ack)
    ensures AliasedCollection(Alias(c, e, collection, alias).cluster.aliases, alias) == Some(collection)
    ensures forall a :: a != alias ==>
              AliasedCollection(Alias(c, e, collection, alias).cluster.aliases, a) == AliasedCollection(c.aliases, a)
    ensures AliasNames(Alias(c, e, collection, alias).cluster.aliases)
            == if alias in AliasNames(c.aliases) then AliasNames(c.aliases) else AliasNames(c.aliases) + [alias]
    ensures Alias(c, e, collection, alias).cluster.collections == c.collections
  {
    var ps := [("action", "CREATEALIAS"), ("name", alias), ("collections", collection)];
    var url := AdminUrl(e, CreateAliasPath(collection, alias));
    assert Alias(c, e, collection, alias) == ServeParams(c, url, ps) by {
      CreateAliasPathRoundTrip(collection, alias);
      ServeRawOf(c, e, CreateAliasPath(collection, alias), ps);
    }
    assert Get(ps, "action") == Some("CREATEALIAS") && Get(ps, "name") == Some(alias) && Get(ps, "collections") == Some(collection) by {
      CreateAliasParams(collection, alias);
    }
    ServeCreateAlias(c, url, ps, collection, alias);
  }

  lemma CreateAliasParams(collection: string, alias: string)
    ensures var ps := [("action", "CREATEALIAS"), ("name", alias), ("collections", collection)];
            Get(ps, "action") == Some("CREATEALIAS") && Get(ps, "name") == Some(alias) && Get(ps, "collections") == Some(collection)
  {
    var ps := [("action", "CREATEALIAS"), ("name", alias), ("collections", collection)];
    assert ps[1..] == [("name", alias), ("collections", collection)];
    assert ps[1..][1..] == [("collections", collection)];
  }

  /** The stand-in's answer to a CREATEALIAS request: the alias is set to the collection, in place or appended. */
  lemma ServeCreateAlias(c: Cluster, url: string, ps: seq<(string, string)>, collection: string, alias: string)
    requires Get(ps, "action") == Some("CREATEALIAS") && Get(ps, "name") == Some(alias) && Get(ps, "collections") == Some(collection)
    ensures ServeParams(c, url, ps).result == Ok(Ack)
    ensures ServeParams(c, url, ps).cluster.aliases == Put(c.aliases, alias, collection)
  {
  }

  /** deleteAlias always succeeds: it removes the alias when present and is a no-op otherwise. */
  lemma DeleteAliasRemoves(c: Cluster, e: Endpoint, alias: string)
    requires ReadableEndpoint(e) && QuerySafe(alias)
    ensures DeleteAlias(c, e, alias).result == Ok(Ack)
    ensures AliasedCollection(DeleteAlias(c, e, alias).cluster.aliases, alias) == None
    ensures forall a :: a != alias ==>
              AliasedCollection(DeleteAlias(c, e, alias).cluster.aliases, a) == AliasedCollection(c.aliases, a)
    ensures alias !in AliasNames(c.aliases) ==> DeleteAlias(c, e, alias).cluster.aliases == c.aliases
    ensures DeleteAlias(c, e, alias).cluster.collections == c.collections
  {
    var ps := [("action", "DELETEALIAS"), ("name", alias)];
    DeleteAliasPathRoundTrip(alias);
    ServeRawOf(c, e, DeleteAliasPath(alias), ps);
    assert Get(ps, "action") == Some("DELETEALIAS");
    assert Get(ps, "name") == Some(alias);
    if alias !in AliasNames(c.aliases) {
      WithoutAbsent(c.aliases, alias);
    }
  }

  lemma {:induction false} WithoutAbsent(a: seq<(string, string)>, k: string)
    requires k !in Keys(a)
    ensures Without(a, {k}) == a
    decreases |a|
  {
    if |a| > 0 {
      WithoutAbsent(a[1..], k);
      assert a == [a[0]] + a[1..];
    }
  }

  /** create(name) on a cluster without `name` succeeds and leaves `name` present with default settings. */
  lemma CreateThenPresent(c: Cluster, name: string)
    requires !HasCollection(c, name)
    ensures Create(c, name, []).result.Ok?
    ensures HasCollection(Create(c, name, []).cluster, name)
    ensures forall n :: HasCollection(c, n) ==> HasCollection(Create(c, name, []).cluster, n)
  {
    DefaultCreate(name);
    NamesConcat(c.collections, [CreateAction(name, Int(1), Str("compositeId"), Int(1), Int(0), Int(0))]);
  }

  /** A second create of the same name is refused by the cluster; the first collection is untouched. */
  lemma CreateTwiceFails(c: Cluster, name: string, opts: Options)
    requires !HasCollection(c, name) && BuildCreate(name, opts).Ok?
    ensures Create(Create(c, name, opts).cluster, name, opts).result == Err(CollectionExists(name))
    ensures Create(Create(c, name, opts).cluster, name, opts).cluster.collections == Create(c, name, opts).cluster.collections
  {
    var c1 := Create(c, name, opts).cluster;
    NamesConcat(c.collections, [BuildCreate(name, opts).value]);
    assert HasCollection(c1, name);
  }

  /** ensureCollection twice in a row never fails; the second call sends nothing and changes nothing. */
  lemma EnsureCollectionTwice(c: Cluster, name: string)
    ensures EnsureCollection(c, name).result.Ok?
    ensures EnsureCollection(EnsureCollection(c, name).cluster, name).result.Ok?
    ensures EnsureCollection(EnsureCollection(c, name).cluster, name).cluster == EnsureCollection(c, name).cluster
    ensures HasCollection(EnsureCollection(EnsureCollection(c, name).cluster, name).cluster, name)
  {
  }

  /** delete(name) removes exactly `name`: other collections stay (the test creates foo and bar, deletes foo, with no aliases). */
  lemma DeleteRemovesOnlyName(c: Cluster, name: string, other: string)
    requires HasCollection(c, name) && HasCollection(c, other) && other != name && !AliasTarget(c.aliases, name)
    ensures Delete(c, name).result.Ok?
    ensures !HasCollection(Delete(c, name).cluster, name)
    ensures HasCollection(Delete(c, name).cluster, other)
  {
  }

  /** delete of a collection that an alias points at is refused, and nothing changes; aliases go first, as the integration harness deletes them. */
  lemma DeleteAliasedRefused(c: Cluster, name: string, alias: string)
    requires HasCollection(c, name) && (alias, name) in c.aliases && ',' !in name
    ensures Delete(c, name).result == Err(CollectionAliased(name))
    ensures Delete(c, name).cluster.collections == c.collections
  {
    var i :| 0 <= i < |c.aliases| && c.aliases[i] == (alias, name);
    assert name in SplitOn(c.aliases[i].1, ',');
  }

  /** Re-aliasing an existing alias repoints it rather than listing it twice. */
  lemma AliasRepoints(c: Cluster, e: Endpoint, first: string, second: string, alias: string)
    requires ReadableEndpoint(e) && QuerySafe(alias) && QuerySafe(first) && QuerySafe(second)
    ensures var c1 := Alias(c, e, first, alias).cluster;
            var c2 := Alias(c1, e, second, alias).cluster;
            && AliasedCollection(c2.aliases, alias) == Some(second)
            && AliasNames(c2.aliases) == AliasNames(c1.aliases)
  {
    var c1 := Alias(c, e, first, alias).cluster;
    AliasPointsAt(c, e, first, alias);
    AliasPointsAt(c1, e, second, alias);
  }

  /** Proof helper, one clause of AliasPointsAt: aliasing a new name appends it to the listing. */
  lemma AliasAppendsNew(c: Cluster, e: Endpoint, collection: string, alias: string)
    requires ReadableEndpoint(e) && QuerySafe(alias) && QuerySafe(collection)
    requires alias !in AliasNames(c.aliases)
    ensures AliasNames(Alias(c, e, collection, alias).cluster.aliases) == AliasNames(c.aliases) + [alias]
  {
    AliasPointsAt(c, e, collection, alias);
  }

  /** Proof helper, one clause of AliasPointsAt: after aliasing, the alias looks up the collection. */
  lemma AliasLookup(c: Cluster, e: Endpoint, collection: string, alias: string)
    requires ReadableEndpoint(e) && QuerySafe(alias) && QuerySafe(collection)
    ensures AliasedCollection(Alias(c, e, collection, alias).cluster.aliases, alias) == Some(collection)
  {
    AliasPointsAt(c, e, collection, alias);
  }

  /** Proof helper, one clause of AliasPointsAt: aliasing one name leaves the lookup of every other name as it was. */
  lemma AliasKeepsOthers(c: Cluster, e: Endpoint, collection: string, alias: string, other: string)
    requires ReadableEndpoint(e) && QuerySafe(alias) && QuerySafe(collection) && other != alias
    ensures AliasedCollection(Alias(c, e, collection, alias).cluster.aliases, other) == AliasedCollection(c.aliases, other)
  {
    AliasPointsAt(c, e, collection, alias);
  }

  /** Aliases created one after the other are listed in creation order. */
  lemma AliasesListedInCreationOrder(c: Cluster, e: Endpoint, collection: string, a1: string, a2: string)
    requires ReadableEndpoint(e) && QuerySafe(collection) && QuerySafe(a1) && QuerySafe(a2)
    requires a1 != a2 && a1 !in AliasNames(c.aliases) && a2 !in AliasNames(c.aliases)
    ensures var c1 := Alias(c, e, collection, a1).cluster;
            var c2 := Alias(c1, e, collection, a2).cluster;
            AliasNames(c2.aliases) == AliasNames(c.aliases) + [a1, a2]
  {
    var c1 := Alias(c, e, collection, a1).cluster;
    AliasAppendsNew(c, e, collection, a1);
    StillFresh(AliasNames(c.aliases), AliasNames(c1.aliases), a1, a2);
    AliasAppendsNew(c1, e, collection, a2);
  }

  lemma StillFresh(n0: seq<string>, n1: seq<string>, a1: string, a2: string)
    requires n1 == n0 + [a1] && a2 !in n0 && a2 != a1
    ensures a2 !in n1
  {
  }

  /** deleteAlias twice in a row: both calls succeed and the alias is gone. */
  lemma DeleteAliasTwice(c: Cluster, e: Endpoint, alias: string)
    requires ReadableEndpoint(e) && QuerySafe(alias)
    ensures var c1 := DeleteAlias(c, e, alias).cluster;
            var r2 := DeleteAlias(c1, e, alias);
            && r2.result == Ok(Ack)
            && r2.cluster.aliases == c1.aliases
            && alias !in AliasNames(r2.cluster.aliases)
  {
    var c1 := DeleteAlias(c, e, alias).cluster;
    DeleteAliasRemoves(c, e, alias);
    DeleteAliasRemoves(c1, e, alias);
  }

  /** A cluster without aliases answers hasAlias, as written and strict, with false for every name. */
  lemma NoAliasesNoHasAlias(c: Cluster, e: Endpoint, alias: string)
    requires ReadableEndpoint(e) && c.aliases == []
    ensures HasAliasOn(c, e, alias).result == Ok(false)
    ensures HasAliasLoose(c, e, alias).result == Ok(false)
  {
    AliasQueriesReportTable(c, e, alias);
  }

  /** After alias(collection, alias), hasAlias(alias) holds, as written and strict, and the alias resolves to the collection. */
  lemma AliasThenHasAlias(c: Cluster, e: Endpoint, collection: string, alias: string)
    requires ReadableEndpoint(e) && QuerySafe(alias) && QuerySafe(collection)
    ensures HasAliasOn(Alias(c, e, collection, alias).cluster, e, alias).result == Ok(true)
    ensures HasAliasLoose(Alias(c, e, collection, alias).cluster, e, alias).result == Ok(true)
    ensures GetAliasedCollection(Alias(c, e, collection, alias).cluster, e, alias).result == Ok(Some(collection))
  {
    var c1 := Alias(c, e, collection, alias).cluster;
    AliasLookup(c, e, collection, alias);
    AliasQueriesReportTable(c1, e, alias);
    ListedAliasPasses(c1.aliases, alias);
  }

  /**
   * After deleteAlias(alias), the strict hasAlias(alias) is false and the alias
   * no longer resolves. The loose hasAlias as written is false too when the
   * name is not a numeric string of any form.
   */
  lemma DeleteAliasThenAbsent(c: Cluster, e: Endpoint, alias: string)
    requires ReadableEndpoint(e) && QuerySafe(alias)
    ensures HasAliasOn(DeleteAlias(c, e, alias).cluster, e, alias).result == Ok(false)
    ensures GetAliasedCollection(DeleteAlias(c, e, alias).cluster, e, alias).result == Ok(None)
    ensures !Decimal.IsNumericString(alias) ==> HasAliasLoose(DeleteAlias(c, e, alias).cluster, e, alias).result == Ok(false)
  {
    var c1 := DeleteAlias(c, e, alias).cluster;
    DeleteAliasRemoves(c, e, alias);
    AliasQueriesReportTable(c1, e, alias);
    if !Decimal.IsNumericString(alias) {
      LooseIsStrictForNonNumeric(c1.aliases, alias);
    }
  }

  /**
   * The loose hasAlias as written can outlive deleteAlias: with "10" and "010"
   * listed, deleting "10" leaves hasAlias("10") true, although "10" no longer
   * resolves and the strict test says false.
   */
  lemma DeleteAliasLeavesNumericTwin(c: Cluster, e: Endpoint, x: string, y: string)
    requires ReadableEndpoint(e) && c.aliases == [("10", x), ("010", y)]
    ensures HasAliasLoose(DeleteAlias(c, e, "10").cluster, e, "10").result == Ok(true)
    ensures HasAliasOn(DeleteAlias(c, e, "10").cluster, e, "10").result == Ok(false)
    ensures GetAliasedCollection(DeleteAlias(c, e, "10").cluster, e, "10").result == Ok(None)
  {
    var c1 := DeleteAlias(c, e, "10").cluster;
    assert QuerySafe("10");
    DeleteAliasRemoves(c, e, "10");
    assert ("010", y) in c.aliases by {
      assert c.aliases[1] == ("010", y);
    }
    assert "010" in AliasNames(c1.aliases) by {
      assert AliasedCollection(c1.aliases, "010") == Some(y);
    }
    TenTwins();
    NumericTwinPasses(c1.aliases, "10", "010");
    AliasQueriesReportTable(c1, e, "10");
  }

  /** getAliases after aliasing two fresh names lists the earlier aliases, then the two names in call order. */
  lemma GetAliasesInCreationOrder(c: Cluster, e: Endpoint, collection: string, a1: string, a2: string)
    requires ReadableEndpoint(e) && QuerySafe(collection) && QuerySafe(a1) && QuerySafe(a2)
    requires a1 != a2 && a1 !in AliasNames(c.aliases) && a2 !in AliasNames(c.aliases)
    ensures var c2 := Alias(Alias(c, e, collection, a1).cluster, e, collection, a2).cluster;
            GetAliases(c2, e).result == Ok(AliasNames(c.aliases) + [a1, a2])
  {
    var c2 := Alias(Alias(c, e, collection, a1).cluster, e, collection, a2).cluster;
    AliasesListedInCreationOrder(c, e, collection, a1, a2);
    AliasQueriesReportTable(c2, e, a1);
  }

  /**
   * create(name) with default options on a cluster without `name` makes
   * getCollections list the earlier collections followed by `name`.
   */
  lemma CreateThenListed(c: Cluster, name: string)
    requires !HasCollection(c, name)
    ensures Names(GetCollections(StatusOf(Create(c, name, []).cluster))) == Names(c.collections) + [name]
  {
    var c1 := Create(c, name, []).cluster;
    assert Names(c1.collections) == Names(c.collections) + [name] by {
      CreateAppendsDefault(c, name);
      NamesAppend(c.collections, c1.collections, CreateAction(name, Int(1), Str("compositeId"), Int(1), Int(0), Int(0)));
    }
    GetCollectionsReportsCluster(c1);
  }

  /** create(name) with default options on a cluster without `name` appends the default create action. */
  lemma CreateAppendsDefault(c: Cluster, name: string)
    requires !HasCollection(c, name)
    ensures Create(c, name, []).cluster.collections
            == c.collections + [CreateAction(name, Int(1), Str("compositeId"), Int(1), Int(0), Int(0))]
  {
    DefaultCreate(name);
  }

  lemma NamesAppend(xs: seq<CreateAction>, ys: seq<CreateAction>, d: CreateAction)
    requires ys == xs + [d]
    ensures Names(ys) == Names(xs) + [d.name]
  {
    NamesConcat(xs, [d]);
  }

  /** Aliasing foo to a1 and a2 and bar to b1 on a cluster without aliases lists exactly those three mappings, in that order. */
  lemma AliasMappingsExample(c: Cluster, e: Endpoint, foo: string, bar: string, a1: string, a2: string, b1: string)
    requires ReadableEndpoint(e) && c.aliases == []
    requires QuerySafe(foo) && QuerySafe(bar) && QuerySafe(a1) && QuerySafe(a2) && QuerySafe(b1)
    requires a1 != a2 && a1 != b1 && a2 != b1
    ensures var c1 := Alias(c, e, foo, a1).cluster;
            var c2 := Alias(c1, e, foo, a2).cluster;
            var c3 := Alias(c2, e, bar, b1).cluster;
            GetAliasMappings(c3, e).result == Ok([(a1, foo), (a2, foo), (b1, bar)])
  {
    var c1 := Alias(c, e, foo, a1).cluster;
    var c2 := Alias(c1, e, foo, a2).cluster;
    FirstTwoAliases(c, e, foo, a1, a2);
    ThirdAlias(c2, e, foo, bar, a1, a2, b1);
  }

  lemma FirstTwoAliases(c: Cluster, e: Endpoint, foo: string, a1: string, a2: string)
    requires ReadableEndpoint(e) && c.aliases == []
    requires QuerySafe(foo) && QuerySafe(a1) && QuerySafe(a2) && a1 != a2
    ensures var c2 := Alias(Alias(c, e, foo, a1).cluster, e, foo, a2).cluster;
            && AliasNames(c2.aliases) == [a1, a2]
            && AliasedCollection(c2.aliases, a1) == Some(foo)
            && AliasedCollection(c2.aliases, a2) == Some(foo)
  {
    var c1 := Alias(c, e, foo, a1).cluster;
    AliasesListedInCreationOrder(c, e, foo, a1, a2);
    AliasLookup(c, e, foo, a1);
    AliasLookup(c1, e, foo, a2);
    AliasKeepsOthers(c1, e, foo, a2, a1);
  }

  lemma ThirdAlias(c2: Cluster, e: Endpoint, foo: string, bar: string, a1: string, a2: string, b1: string)
    requires ReadableEndpoint(e) && QuerySafe(bar) && QuerySafe(b1) && a1 != b1 && a2 != b1
    requires AliasNames(c2.aliases) == [a1, a2]
    requires AliasedCollection(c2.aliases, a1) == Some(foo) && AliasedCollection(c2.aliases, a2) == Some(foo)
    ensures GetAliasMappings(Alias(c2, e, bar, b1).cluster, e).result == Ok([(a1, foo), (a2, foo), (b1, bar)])
  {
    var c3 := Alias(c2, e, bar, b1).cluster;
    ThirdAliasTable(c2, e, foo, bar, a1, a2, b1);
    GetAliasMappingsReportsTable(c3, e);
  }

  lemma ThirdAliasTable(c2: Cluster, e: Endpoint, foo: string, bar: string, a1: string, a2: string, b1: string)
    requires ReadableEndpoint(e) && QuerySafe(bar) && QuerySafe(b1) && a1 != b1 && a2 != b1
    requires AliasNames(c2.aliases) == [a1, a2]
    requires AliasedCollection(c2.aliases, a1) == Some(foo) && AliasedCollection(c2.aliases, a2) == Some(foo)
    ensures Alias(c2, e, bar, b1).cluster.aliases == [(a1, foo), (a2, foo), (b1, bar)]
  {
    var m := Alias(c2, e, bar, b1).cluster.aliases;
    assert AliasNames(m) == [a1, a2, b1] by {
      AliasAppendsNew(c2, e, bar, b1);
    }
    assert AliasedCollection(m, b1) == Some(bar) by {
      AliasLookup(c2, e, bar, b1);
    }
    assert AliasedCollection(m, a1) == Some(foo) by {
      AliasKeepsOthers(c2, e, bar, b1, a1);
    }
    assert AliasedCollection(m, a2) == Some(foo) by {
      AliasKeepsOthers(c2, e, bar, b1, a2);
    }
    ThreeEntryTable(m, a1, a2, b1, foo, foo, bar);
  }

  lemma ThreeEntryTable(m: AliasMap, k1: string, k2: string, k3: string, v1: string, v2: string, v3: string)
    requires AliasNames(m) == [k1, k2, k3]
    requires AliasedCollection(m, k1) == Some(v1) && AliasedCollection(m, k2) == Some(v2) && AliasedCollection(m, k3) == Some(v3)
    ensures m == [(k1, v1), (k2, v2), (k3, v3)]
  {
    EntryAt(m, 0, v1);
    EntryAt(m, 1, v2);
    EntryAt(m, 2, v3);
  }

  lemma EntryAt(m: AliasMap, i: int, c: string)
    requires 0 <= i < |m| && AliasedCollection(m, m[i].0) == Some(c)
    ensures m[i].1 == c
  {
    assert (m[i].0, m[i].1) in m;
  }
}

=== FILE: php_array.dfy ===
/**
 * String-keyed PHP arrays: ordered lists of entries with distinct keys, the
 * array functions the collection manager relies on (array_keys, reading an
 * element, array_diff_key, array_merge), and the assignment and removal the
 * stand-in cluster uses to keep its alias table.
 */
module PhpArray {
  import opened Wrappers

  /** Every key occurs at most once, as in any PHP array. */
  predicate DistinctKeys<V>(a: seq<(string, V)>)
  {
    forall i, j :: 0 <= i < j < |a| ==> a[i].0 != a[j].0
  }

  /** A PHP array with string keys: entries in insertion order, keys distinct. */
  type OrderedMap<V> = a: seq<(string, V)> | DistinctKeys(a) witness []

  /** array_keys: the keys, in the array's order. */
  function Keys<V>(a: seq<(string, V)>): (ks: seq<string>)
    ensures |ks| == |a|
    ensures forall i :: 0 <= i < |a| ==> ks[i] == a[i].0
  {
    if |a| == 0 then [] else [a[0].0] + Keys(a[1..])
  }

  /** Reading `$a[$k]`: the value stored under `k`, or None when `k` is not a key. */
  function Get<V>(a: seq<(string, V)>, k: string): (r: Option<V>)
    ensures r.None? <==> k !in Keys(a)
    ensures r.Some? ==> (k, r.value) in a
  {
    if |a| == 0 then None
    else if a[0].0 == k then Some(a[0].1)
    else Get(a[1..], k)
  }

  /** The entries of `a` whose key is not in `ks`, in their original order. */
  function Without<V>(a: seq<(string, V)>, ks: set<string>): (d: seq<(string, V)>)
    ensures |d| <= |a|
    ensures forall i :: 0 <= i < |d| ==> d[i] in a && d[i].0 !in ks
    ensures forall i :: 0 <= i < |a| && a[i].0 !in ks ==> a[i] in d
  {
    if |a| == 0 then []
    else (if a[0].0 in ks then [] else [a[0]]) + Without(a[1..], ks)
  }

  /** The set of keys of an array. */
  function KeySet<V>(a: seq<(string, V)>): set<string>
  {
    set k | k in Keys(a)
  }

  /** array_diff_key($a, $b): the entries of `a` whose key is not a key of `b`. */
  function DiffKey<V, W>(a: seq<(string, V)>, b: seq<(string, W)>): seq<(string, V)>
  {
    Without(a, KeySet(b))
  }

  /** Each entry of `a` with its value replaced by `b`'s value for the same key, if `b` has one. */
  function Overwrite<V>(a: seq<(string, V)>, b: seq<(string, V)>): (o: seq<(string, V)>)
    ensures Keys(o) == Keys(a)
  {
    if |a| == 0 then []
    else [(a[0].0, Get(b, a[0].0).GetOr(a[0].1))] + Overwrite(a[1..], b)
  }

  /**
   * array_merge($a, $b) for string keys: `a`'s keys keep their positions and take
   * `b`'s value where `b` has one; `b`'s other entries follow in `b`'s order.
   */
  function Merge<V>(a: seq<(string, V)>, b: seq<(string, V)>): (m: seq<(string, V)>)
    ensures Keys(m) == Keys(a) + Keys(DiffKey(b, a))
    ensures forall k :: Get(m, k) == (if k in Keys(b) then Get(b, k) else Get(a, k))
  {
    var m := Overwrite(a, b) + DiffKey(b, a);
    KeysConcat(Overwrite(a, b), DiffKey(b, a));
    forall k
      ensures Get(m, k) == (if k in Keys(b) then Get(b, k) else Get(a, k))
    {
      GetConcat(Overwrite(a, b), DiffKey(b, a), k);
      GetOverwrite(a, b, k);
      if k !in Keys(a) {
        GetWithout(b, KeySet(a), k);
      }
    }
    m
  }

  /** `$a[$k] = $v`: an existing key keeps its position, a new key is appended. Used by the stand-in cluster only. */
  function Put<V>(a: seq<(string, V)>, k: string, v: V): (r: seq<(string, V)>)
    ensures Keys(r) == if k in Keys(a) then Keys(a) else Keys(a) + [k]
    ensures Get(r, k) == Some(v)
    ensures forall k' :: k' != k ==> Get(r, k') == Get(a, k')
  {
    if |a| == 0 then [(k, v)]
    else
      KeysCons(a[0], a[1..]);
      assert a == [a[0]] + a[1..];
      if a[0].0 == k then
        KeysCons((k, v), a[1..]);
        [(k, v)] + a[1..]
      else
        var rest := Put(a[1..], k, v);
        KeysCons(a[0], rest);
        [a[0]] + rest
  }

  lemma KeysCons<V>(x: (string, V), rest: seq<(string, V)>)
    ensures Keys([x] + rest) == [x.0] + Keys(rest)
  {
    assert ([x] + rest)[1..] == rest;
  }

  /** `unset($a[$k])`: the entry for `k` disappears; every other entry stays, in order. Used by the stand-in cluster only. */
  function Remove<V>(a: seq<(string, V)>, k: string): (r: seq<(string, V)>)
    ensures Get(r, k) == None
    ensures forall k' :: k' != k ==> Get(r, k') == Get(a, k')
  {
    forall k' | k' != k
      ensures Get(Without(a, {k}), k') == Get(a, k')
    {
      GetWithout(a, {k}, k');
    }
    Without(a, {k})
  }

  /** The keys left after filtering are exactly the keys outside `ks`; nothing is left exactly when every key is in `ks`. */
  lemma WithoutKeys<V>(a: seq<(string, V)>, ks: set<string>)
    ensures |Without(a, ks)| > 0 <==> exists i :: 0 <= i < |a| && a[i].0 !in ks
    ensures forall k :: k in Keys(Without(a, ks)) <==> k in Keys(a) && k !in ks
  {
    var d := Without(a, ks);
    if |d| > 0 {
      assert d[0] in a;
    }
    forall k | k in Keys(a) && k !in ks
      ensures k in Keys(d)
    {
      var i :| 0 <= i < |a| && a[i].0 == k;
      var j :| 0 <= j < |d| && d[j] == a[i];
      assert Keys(d)[j] == k;
    }
    forall k | k in Keys(d)
      ensures k in Keys(a) && k !in ks
    {
      var j :| 0 <= j < |d| && Keys(d)[j] == k;
      var i :| 0 <= i < |a| && a[i] == d[j];
      assert Keys(a)[i] == k;
    }
  }

  lemma {:induction false} KeysConcat<V>(x: seq<(string, V)>, y: seq<(string, V)>)
    ensures Keys(x + y) == Keys(x) + Keys(y)
  {
  }

  lemma {:induction false} GetConcat<V>(x: seq<(string, V)>, y: seq<(string, V)>, k: string)
    ensures Get(x + y, k) == if k in Keys(x) then Get(x, k) else Get(y, k)
    decreases |x|
  {
    if |x| > 0 {
      assert (x + y)[1..] == x[1..] + y;
      GetConcat(x[1..], y, k);
    } else {
      assert x + y == y;
    }
  }

  lemma {:induction false} GetOverwrite<V>(a: seq<(string, V)>, b: seq<(string, V)>, k: string)
    ensures Get(Overwrite(a, b), k) == if k in Keys(a) then (if k in Keys(b) then Get(b, k) else Get(a, k)) else None
    decreases |a|
  {
    if |a| > 0 && a[0].0 != k {
      GetOverwrite(a[1..], b, k);
    }
  }

  /** Filtering out other keys does not change what reading `k` gives. */
  lemma {:induction false} GetWithout<V>(a: seq<(string, V)>, ks: set<string>, k: string)
    requires k !in ks
    ensures Get(Without(a, ks), k) == Get(a, k)
    decreases |a|
  {
    if |a| > 0 {
      GetWithout(a[1..], ks, k);
      if a[0].0 in ks {
        assert Without(a, ks) == Without(a[1..], ks);
      } else {
        assert Without(a, ks) == [a[0]] + Without(a[1..], ks);
      }
    }
  }

  /** Filtering keeps the input order: it distributes over concatenation. */
  lemma {:induction false} WithoutConcat<V>(x: seq<(string, V)>, y: seq<(string, V)>, ks: set<string>)
    ensures Without(x + y, ks) == Without(x, ks) + Without(y, ks)
    decreases |x|
  {
    if |x| == 0 {
      assert x + y == y;
    } else {
      assert (x + y)[1..] == x[1..] + y;
      WithoutConcat(x[1..], y, ks);
    }
  }

  /** A single entry is kept exactly when its key is not excluded. */
  lemma WithoutSingle<V>(x: (string, V), ks: set<string>)
    ensures Without([x], ks) == if x.0 in ks then [] else [x]
  {
    assert [x][1..] == [];
  }

  /** In an array with distinct keys, reading `k` gives `v` exactly when `(k, v)` is an entry. */
  lemma {:induction false} GetDistinct<V>(a: seq<(string, V)>, k: string, v: V)
    requires DistinctKeys(a)
    ensures Get(a, k) == Some(v) <==> (k, v) in a
    decreases |a|
  {
    if |a| > 0 && a[0].0 != k {
      assert DistinctKeys(a[1..]) by {
        forall i, j | 0 <= i < j < |a[1..]|
          ensures a[1..][i].0 != a[1..][j].0
        {
          assert a[1..][i] == a[i + 1] && a[1..][j] == a[j + 1];
        }
      }
      GetDistinct(a[1..], k, v);
      if (k, v) in a {
        var i :| 0 <= i < |a| && a[i] == (k, v);
        assert a[1..][i - 1] == (k, v);
      }
    } else if |a| > 0 && (k, v) in a {
      var i :| 0 <= i < |a| && a[i] == (k, v);
      assert i == 0;
    }
  }

  /** Distinct entry keys mean array_keys lists no key twice. */
  lemma KeysDistinct<V>(a: seq<(string, V)>)
    requires DistinctKeys(a)
    ensures forall i, j :: 0 <= i < j < |Keys(a)| ==> Keys(a)[i] != Keys(a)[j]
  {
  }

  /** And conversely: when array_keys lists no key twice, the entry keys are distinct. */
  lemma DistinctFromKeys<V>(a: seq<(string, V)>)
    requires forall i, j :: 0 <= i < j < |Keys(a)| ==> Keys(a)[i] != Keys(a)[j]
    ensures DistinctKeys(a)
  {
    forall i, j | 0 <= i < j < |a|
      ensures a[i].0 != a[j].0
    {
      assert Keys(a)[i] == a[i].0 && Keys(a)[j] == a[j].0;
    }
  }

  /** Assigning an element keeps the keys distinct. */
  lemma PutDistinct<V>(a: seq<(string, V)>, k: string, v: V)
    requires DistinctKeys(a)
    ensures DistinctKeys(Put(a, k, v))
  {
    KeysDistinct(a);
    var r := Put(a, k, v);
    DistinctFromKeys(r);
  }

  /** Unsetting an element keeps the keys distinct. */
  lemma {:induction false} WithoutDistinct<V>(a: seq<(string, V)>, ks: set<string>)
    requires DistinctKeys(a)
    ensures DistinctKeys(Without(a, ks))
    decreases |a|
  {
    if |a| > 0 {
      assert DistinctKeys(a[1..]) by {
        forall i, j | 0 <= i < j < |a[1..]|
          ensures a[1..][i].0 != a[1..][j].0
        {
          assert a[1..][i] == a[i + 1] && a[1..][j] == a[j + 1];
        }
      }
      WithoutDistinct(a[1..], ks);
      var rest := Without(a[1..], ks);
      if a[0].0 !in ks {
        forall j | 0 <= j < |rest|
          ensures rest[j].0 != a[0].0
        {
          assert rest[j] in a[1..];
        }
        assert Without(a, ks) == [a[0]] + rest;
      } else {
        assert Without(a, ks) == rest;
      }
    }
  }
}

=== FILE: wrappers.dfy ===
/** Option and Result values used for PHP's `null` returns and thrown exceptions. */
module Wrappers {

  /** A value that may be absent (PHP `null`). */
  datatype Option<+T> = None | Some(value: T) {

    /** The carried value, or `default` when absent. */
    function GetOr(default: T): T
    {
      match this
      case Some(v) => v
      case None => default
    }
  }

  /** Either a value or the error that would have been thrown instead. */
  datatype Result<+T, +E> = Ok(value: T) | Err(error: E)
}
